=== FILE: README.md ===
# revelation-reach in Dafny

A model of the interactive core of revelation-reach, a Quran reading web
application that renders verses fetched from a public Quran content API. Each
page is a state record with one pure step function per user action or
browser event. The model covers:

- **Juz page view** (`src/pages/PageView.tsx`):
  - grouping a juz's verses into printed pages, and choosing the current page;
  - Previous/Next navigation and the buttons' disabled states;
  - the juz selector;
  - single-verse play/pause;
  - "Play Page" sequential recitation, where the end of one verse schedules the next 500 ms later;
  - "Stop".
- **Surah page** (`src/pages/SurahDetail.tsx`):
  - the bookmark toggle;
  - single-verse play/pause;
  - the hizb-quarter marker, the Bismillah banner, and position-based pairing of translation and audio lists.
- **Verse-number ornament** (`src/components/ui/ayahSymbol.tsx`): decimal text with Arabic-Indic digits.
- **Search page** (`src/pages/SearchPage.tsx`):
  - trimming and gating the submitted term;
  - the query's enable condition;
  - the "Surah" number shown on each result;
  - which result panel is visible.

Modules:

- `Options`: `Option`.
- `Quran`: API records and lookups by verse number.
- `AudioElement`: the HTML audio element. Every element a page creates is kept, oldest first. The last one is `audioRef.current`, so "the previous element was paused" is a fact about the state.
- `Pagination`: `pagesInJuz`.
- `JuzPlayer`: playback in the juz view.
  - The `onended` closure and the 500 ms timer are records.
  - They capture the render's `playingAyah`, current page and audio data.
  - The auto-mode flag is read live, as through `isAutoPlayingRef`.
- `PageView`: the view state, `Step` and `Run`.
- `SurahDetail`.
- `Decimal`: integer `toString`.
- `AyahSymbol`.
- `SearchPage`.

Behaviours of the code that the model keeps:

- When the verse after a finished one has no audio, auto mode stays on and nothing further plays. `onended` (src/pages/PageView.tsx:102-108) has no branch that turns it off.
- A timer keeps the `playingAyah` of the render that started the finished verse, and calls that render's `playAudio` (src/pages/PageView.tsx:105-107). If that value names the timer's own verse and an element is heard, the timer pauses the element instead of starting the verse (src/pages/PageView.tsx:79-82). This happens when the reader restarts that verse during the 500 ms pause. Auto mode stays on, "Stop" is still shown, and nothing more is scheduled (`PageView.StaleTimerPausesRestartedVerse`).
- "Play Page" on a page whose first verse is already playing, started by its own button with auto mode off, pauses that verse. `startAutoPlay` calls `playAudio`, which takes its pause branch (src/pages/PageView.tsx:79-82). Auto mode is then on, with nothing playing and nothing scheduled.
- "Play Page" turns auto mode on even when the page's first verse has no audio.
- A pending auto-advance timer is not cancelled by Stop, by navigation, or by a juz change. See Findings.
- When the finished verse is not on the captured page, `findIndex` gives −1, so the page's first verse comes next (`JuzPlayer.IsFollowing`).

## Model

| member | source | states |
|---|---|---|
| Quran.FindAudio | src/pages/PageView.tsx:103 | the audio entry is found by verse number, not position: the result is the first entry of the list carrying the requested number, and there is none exactly when no entry carries it |
| Quran.FindIndex | src/pages/PageView.tsx:99 | `findIndex` yields the first position holding the verse, or −1 exactly when the verse is not on the page |
| Quran.BismillahOmittedExactlyForOneAndNine | src/pages/SurahDetail.tsx:143 | of surahs 1..114, exactly surahs 1 and 9 are shown without the Bismillah banner |
| AudioElement.PauseCurrent | src/pages/PageView.tsx:85-87 | pausing touches only the current element; afterwards nothing is heard, and if only the current element could play, every element is paused |
| AudioElement.StartNew | src/pages/PageView.tsx:85-91 | the previous element is paused before the new one is created and played; the new element is the current one and is audible; no other element changes |
| Pagination.OnPage | src/pages/PageView.tsx:56-60 | a page's verse list holds exactly the juz verses with that page number |
| Pagination.Collect | src/pages/PageView.tsx:55-60 | the insertion-ordered map has one entry per distinct page of the juz, and each entry's list is that page's verses in juz order |
| Pagination.SortByPage | src/pages/PageView.tsx:61-62 | sorting the entries by page gives strictly ascending page numbers and is a permutation of the entries |
| Pagination.PagesInJuz | src/pages/PageView.tsx:53-64 | with no juz data there are no pages; otherwise the result is a page grouping (ascending pages, exactly the pages present, each holding exactly its verses in order), and is empty only when the juz has no verses |
| Pagination.OnPageCount | src/pages/PageView.tsx:56-60 | each verse of a page occurs in that page's list as many times as in the juz; verses of other pages occur zero times |
| Pagination.OnPageIsSubsequence | src/pages/PageView.tsx:56-60 | a page's list keeps the juz order: it is a subsequence of the juz verses |
| Pagination.GroupingIsPartition | src/pages/PageView.tsx:53-64 | a page grouping partitions the juz: no empty page, every verse in exactly one page (its own), with its multiplicity, each page a subsequence |
| Pagination.GroupingIsUnique | src/pages/PageView.tsx:53-64 | the page-grouping property determines the result: two groupings of the same verses are equal |
| JuzPlayer.PlayAudio | src/pages/PageView.tsx:78-114 | when the requested verse is the captured `playingAyah` and the current element is unpaused, that element is paused and nothing is highlighted; otherwise the old element is paused, a new unpaused element for the URL is added, and that verse is highlighted; the state invariant is kept |
| JuzPlayer.FollowingFromFindIndex | src/pages/PageView.tsx:98-102 | `currentPageAyahs[findIndex(...) + 1]` exists exactly at the slot after the first occurrence of the finished verse, or at slot 0 when that verse is not on the page |
| JuzPlayer.NaturalEnd | src/pages/PageView.tsx:94-113 | a natural end happens only to an unpaused current element. It clears the highlight, may only turn auto mode off, and adds at most one timer. Such a timer carries the captured scope, a 500 ms delay, and the verse following the finished one. The state invariant is kept |
| JuzPlayer.EndWithoutAutoSchedulesNothing | src/pages/PageView.tsx:97 | without auto mode a natural end schedules nothing and leaves auto mode off |
| JuzPlayer.EndSchedulesFollowingVerse | src/pages/PageView.tsx:97-107 | in auto mode, when the following verse has audio, exactly one timer for it is scheduled with its URL and 500 ms, and auto mode stays on |
| JuzPlayer.EndOfPageStopsAuto | src/pages/PageView.tsx:109-111 | in auto mode, when no verse follows on the captured page, auto mode turns off and nothing is scheduled |
| JuzPlayer.SilentNextVerseKeepsAuto | src/pages/PageView.tsx:102-108 | in auto mode, when the following verse has no audio, nothing is scheduled and auto mode stays on |
| JuzPlayer.FirePending | src/pages/PageView.tsx:105-107 | a timer runs the `playAudio` it captured, whatever the auto flag now is, and is removed. When its captured `playingAyah` is its verse and an element is heard, that element is paused and nothing is heard. Otherwise a new unpaused element with the timer's URL, verse and captured scope becomes current and its verse is highlighted. A missing timer changes nothing |
| JuzPlayer.StopAutoPlay | src/pages/PageView.tsx:126-132 | stopping turns auto mode off, pauses the current element, clears the highlight, and leaves the pending timers as they are |
| PageView.MovedIndex | src/pages/PageView.tsx:71-75 | Next moves to `min(len - 1, i + 1)`, Prev to `max(0, i - 1)`; from a valid index the result stays valid |
| PageView.HandlePageChange | src/pages/PageView.tsx:68-76 | a page change stops auto play and playback and moves the index; the data and the juz are unchanged |
| PageView.SelectJuz | src/pages/PageView.tsx:209-214 | choosing a juz sets the selection, resets the index to 0 and stops auto play and playback |
| PageView.CurrentJuzPage | src/pages/PageView.tsx:66 | there is a current page exactly when the index is within the page list; it is the page with exactly `index` pages before it, it is non-empty, and it holds exactly the juz verses printed on it |
| PageView.HeaderShown | src/pages/PageView.tsx:233 | the header with "Play Page" and "Stop" is rendered only on a page that opens a surah; then juz data is present and the index is in range |
| PageView.PlayButtonShown | src/pages/PageView.tsx:275-330 | a verse's play button is rendered only for a verse of the juz printed on the current page whose audio verse, found by number, exists |
| PageView.HeaderControls | src/pages/PageView.tsx:252-267 | without the header neither header control does anything; with it, "Play Page" acts only while auto mode is off and turns it on once audio data is present, and "Stop" acts only while auto mode is on and turns it off |
| PageView.PlayButtonGate | src/pages/PageView.tsx:297-299 | a click on a play button that is not rendered does nothing; a rendered one starts its verse unless `playAudio` pauses instead, in which case nothing is heard afterwards; auto mode is untouched |
| PageView.StartAutoPlay | src/pages/PageView.tsx:116-124 | without a non-empty current page or audio data nothing changes; otherwise auto mode is on. When the first verse has no audio nothing else changes. When it has audio, it plays, unless it is the verse already playing in this render: then `playAudio` pauses it and nothing is heard |
| PageView.StepPreservesInvariant | src/pages/PageView.tsx:68-132 | every event keeps the invariant: at most one element heard, the highlighted verse is the one heard, timers target verses with audio on their captured page, and the index is non-negative |
| PageView.RunPreservesInvariant | src/pages/PageView.tsx:68-132 | the invariant holds after any sequence of events |
| PageView.AtMostOneAudible | src/pages/PageView.tsx:85-91 | from the initial state, after any events, no element other than the current one is unpaused and the highlight matches what is heard |
| PageView.NavigationBounds | src/pages/PageView.tsx:360-377 | Previous is disabled exactly on the first page and Next exactly on the last; navigation keeps the index in range, and an enabled button moves it by exactly one |
| PageView.NavigationStopsPlayback | src/pages/PageView.tsx:68-69 | a juz change or an enabled page turn leaves auto mode off, nothing highlighted and nothing heard |
| PageView.OnePage | src/pages/PageView.tsx:53-64 | three verses printed on page 5 give one group for page 5 holding them in order |
| PageView.AutoPlayScenario | src/pages/PageView.tsx:94-124 | "Play Page" on verses 101, 102 (with audio) and 103 (without) plays 101, then 102 after the timer, then stops with nothing scheduled and auto mode still on |
| PageView.StaleAdvanceSurvivesNavigation | src/pages/PageView.tsx:105-107 | as written, a timer scheduled before an enabled page turn still starts its verse afterwards, with auto mode off |
| PageView.StaleTimerPausesRestartedVerse | src/pages/PageView.tsx:79-82 | as written, a timer whose captured `playingAyah` names its own verse, fired while an element is heard, pauses that element: nothing is heard or highlighted, auto mode is unchanged and the timer is used up |
| PageView.StaleAdvanceCounterexample | src/pages/PageView.tsx:126-132 | as written, pressing Next during the 500 ms pause shows page 6 while verse 102 of page 5 plays, with auto mode off |
| PageView.CorrectedStopIsQuiet | src/pages/PageView.tsx:126-132 | with stopping corrected, Stop, an enabled page turn and a juz change leave nothing heard, highlighted or scheduled |
| PageView.QuietUntilPlayClicked | src/pages/PageView.tsx:126-132 | a page with nothing heard, highlighted or scheduled and auto mode off stays so through any events until a play control is pressed |
| PageView.CorrectedStopStaysQuiet | src/pages/PageView.tsx:126-132 | with stopping corrected, after an effective Stop, page turn or juz change the page stays quiet through any events until a play control is pressed |
| PageView.CorrectedStepPreservesInvariant | src/pages/PageView.tsx:68-132 | the corrected step keeps the same state invariant |
| SurahDetail.ToggleBookmark | src/pages/SurahDetail.tsx:31-41 | the toggled verse changes membership, no other verse does, and the set grows or shrinks by one |
| SurahDetail.ToggleTwiceRestores | src/pages/SurahDetail.tsx:31-41 | toggling the same verse twice restores the bookmark set |
| SurahDetail.TogglesCommute | src/pages/SurahDetail.tsx:31-41 | toggles of two verses give the same set in either order |
| SurahDetail.PlayAudio | src/pages/SurahDetail.tsx:43-56 | the same unpaused verse is paused and unhighlighted; any other request pauses the old element and starts a new unpaused one for the verse, which is highlighted |
| SurahDetail.NaturalEnd | src/pages/SurahDetail.tsx:54 | the end of a verse only clears the highlight: no element is added and nothing is heard afterwards |
| SurahDetail.ClickPlay | src/pages/SurahDetail.tsx:206-210 | only a rendered play button can be clicked; it pauses the verse when that verse is the one heard, and otherwise starts it with the URL of the audio entry at the same position and highlights its number within the surah |
| SurahDetail.PlaybackStaysConsistent | src/pages/SurahDetail.tsx:43-56 | through any sequence of plays and ends, at most one element is heard and the highlighted verse is the one heard |
| SurahDetail.EndsNeverAdvance | src/pages/SurahDetail.tsx:54 | ends alone never start anything: the page has no auto-advance |
| SurahDetail.UnmarkedVersesShareQuarter | src/pages/SurahDetail.tsx:161 | between two hizb-quarter markers every verse is in the same quarter |
| SurahDetail.QuarterChangesAreMarked | src/pages/SurahDetail.tsx:161 | the first verse carries a marker, and every change of quarter is marked at or before the verse where it shows |
| SurahDetail.Paired | src/pages/SurahDetail.tsx:157-158 | the translation or audio entry of a verse is the one at the same position, absent when the list is missing or too short |
| SurahDetail.AlignedPairingMatches | src/pages/SurahDetail.tsx:157 | when the translation list follows the Arabic list verse for verse, each verse gets its own translation |
| SurahDetail.ShiftedPairingMismatches | src/pages/SurahDetail.tsx:157-158 | pairing is by position only: for every verse but the last, a list shifted by one gives the verse its neighbour's entry, which is a different verse whenever the neighbour's number differs |
| Decimal.NumberToStringRoundTrip | src/components/ui/ayahSymbol.tsx:2-3 | reading back the decimal text of an integer gives the integer |
| Decimal.DigitCount | src/components/ui/ayahSymbol.tsx:2-3 | a positive number has `k` digits exactly when it lies in [10^(k-1), 10^k), and it has one digit exactly when it is below 10, so 0 has one |
| AyahSymbol.LocalizeChar | src/components/ui/ayahSymbol.tsx:4 | an ASCII digit becomes the Arabic-Indic digit of the same value; any other character is unchanged |
| AyahSymbol.ToArabicNumber | src/components/ui/ayahSymbol.tsx:1-5 | the result has the length of the number's decimal text; for a non-negative number every character is an Arabic-Indic digit; a minus sign passes through; no ASCII digit remains |
| AyahSymbol.ArabicNumberRoundTrip | src/components/ui/ayahSymbol.tsx:1-5 | the ornament text can be read back to the number |
| AyahSymbol.ArabicNumberInjective | src/components/ui/ayahSymbol.tsx:1-5 | distinct numbers get distinct ornaments |
| SearchPage.Trim | src/pages/SearchPage.tsx:24-25 | `trim()` removes only leading and trailing whitespace and leaves none at either end |
| SearchPage.TrimUnique | src/pages/SearchPage.tsx:24-25 | the trim is the only infix that has only whitespace around it and no whitespace at either end |
| SearchPage.TrimEmptyIffAllSpace | src/pages/SearchPage.tsx:24 | the trimmed term is empty (falsy) exactly when the term is all whitespace |
| SearchPage.TrimIdempotent | src/pages/SearchPage.tsx:24-25 | trimming twice is trimming once |
| SearchPage.HandleSearch | src/pages/SearchPage.tsx:22-27 | the active search becomes the trimmed term exactly when the term holds a non-space character; otherwise it is unchanged |
| SearchPage.SubmittedSearchHasNoEdgeSpace | src/pages/SearchPage.tsx:24-25 | starting from the empty search, no sequence of submissions yields an active search with whitespace at either end |
| SearchPage.ResubmitIsIdempotent | src/pages/SearchPage.tsx:24-25 | submitting the same term twice equals submitting it once, and a term equal to its own trim becomes the active search unchanged |
| SearchPage.QueryEnabledIffMeaningfulSubmit | src/pages/SearchPage.tsx:19 | starting from the empty search, the query is enabled exactly when some submitted term held a non-space character |
| SearchPage.SurahBadge | src/pages/SearchPage.tsx:97 | the formula puts verse `n` in block `r` with `10(r-1) < n <= 10r`, and every `n >= 1` gets `r >= 1` |
| SearchPage.SurahBadgeMonotone | src/pages/SearchPage.tsx:97 | the formula never decreases as the verse number grows |
| SearchPage.SurahLink | src/pages/SearchPage.tsx:108 | the `/surah/` link built from a number routes back to that number |
| SearchPage.CardAsWritten | src/pages/SearchPage.tsx:96-108 | as written, the badge is the formula's value and the link routes to that same value |
| SearchPage.SurahFormulaMisplacesVerse | src/pages/SearchPage.tsx:97 | as written, global verse 8 (the first verse of surah 2) gets badge 1 and a link to surah 1 |
| SearchPage.ResultCard | src/pages/SearchPage.tsx:96-108 | corrected: badge and link both name the match's own surah |
| SearchPage.VisiblePanels | src/pages/SearchPage.tsx:61-152 | loading shows while an enabled query has no response; the results list shows for a positive count; "no results" shows for a zero count; the start prompt shows for an empty active search |
| SearchPage.ExactlyOnePanel | src/pages/SearchPage.tsx:69-122 | exactly one panel is visible; the results list and "no results" never show together |

## Left out

- Network I/O: the juz fetches and every API call. Fetched data enters as the `DataLoaded` event, or as the arguments of the search and surah functions. The race between an old juz fetch and a new one is not modelled.
- Loading and error states of the pages, and the skeleton placeholders.
- The audio element's real asynchrony: buffering, the promise from `play()`, and playback errors.
- An end is an explicit event that happens only to the unpaused current element.
- Timers are pending records, not wall-clock time. Any pending timer may be the next to fire (`TimerFired` names it).
- React machinery: state batching, effect timing and query caching.
  - `isAutoPlayingRef` is taken to equal the `isAutoPlaying` state.
  - The effect cleanup that pauses on juz change is subsumed by `stopAutoPlay`, which pauses the same element.
  - Unmounting is not modelled.
- The page-flip animation, CSS and layout.
- Splitting the Bismillah off a first verse's text (src/pages/PageView.tsx:321-323). This is a string split on a fixed Arabic phrase, with no state.
- The presentational and context files: Home, Browse, Bookmarks and SurahCard.
- Decimal.NumberToString: covers integers only. Fractional, exponent and non-finite number text is not modelled. The ornament is only given verse numbers.
- SearchPage.IsWhiteSpace: lists the code points of ECMAScript's WhiteSpace and LineTerminator productions. The Unicode `Zs` category is taken as of Unicode 15.
- SearchPage.VisiblePanels: treats a disabled query as having no data. Cached results of earlier keys are not modelled. The match count is a natural number.
- SearchPage.VisiblePanels: assumes the query library's `isLoading` is false for a disabled query, as in TanStack Query v5, where it is `isPending && isFetching`. The library version is not part of this model. Under v4 a disabled query without data reports `isLoading === true`, so the first render would show the skeletons together with the start prompt, and `ExactlyOnePanel` would not hold.
- SearchPage.VisiblePanels: a failed query is not modelled. The code shows no panel for it: no loading, no results, no "no results" and no start prompt.
- Verses without a page number. The code does not skip them: they are grouped under an `undefined` map key, and the comparator at src/pages/PageView.tsx:62 gives NaN for that key, so where the group sorts is up to the engine. The model gives every verse an integer page.
- The type declarations of the API records are not part of this model. Search matches are taken to carry their surah, as the API returns them.

## Findings

| source | as written | input that shows it | evidently intended | confidence | as-written member | corrected member |
|---|---|---|---|---|---|---|
| src/pages/PageView.tsx:105-107, 126-132 | `stopAutoPlay` turns auto mode off and pauses the current element, but does not clear a pending 500 ms auto-advance timer. That timer calls `playAudio` without checking the auto flag | "Play Page" on page 5 (verses 101, 102), then Next pressed within 500 ms of the end of 101: page 6 is shown while 102 plays, with auto mode off | stopping, navigating or changing juz also cancels the pending timer, so the page stays quiet until play is pressed | not executed | PageView.StaleTimerPausesRestartedVerse | src/pages/PageView.tsx:79-82 | as written, a timer whose captured `playingAyah` names its own verse, fired while an element is heard, pauses that element: nothing is heard or highlighted, auto mode is unchanged and the timer is used up |
| PageView.StaleAdvanceCounterexample | PageView.CorrectedStopStaysQuiet |
| src/pages/SearchPage.tsx:97, 108 | the surah shown and linked for a match is `Math.floor((n - 1) / 10) + 1` of the global verse number `n`. Surahs are not blocks of ten verses | global verse 8 is the first verse of surah 2, but the card shows "Surah 1" and links to `/surah/1` | use the surah the match belongs to (`ayah.surah.number`) | not executed | SearchPage.SurahFormulaMisplacesVerse | SearchPage.ResultCard |

=== FILE: audio_element.dfy ===
/** The HTML `Audio` element, reduced to what the pages use: a source URL,
    a paused flag, `play()`, `pause()` and the `onended` notification.

    A page keeps one element in `audioRef.current`. The model keeps every
    element the page has created, oldest first; the last one is the ref's
    current value. That way "the previous element was paused before the new
    one started" is a statement about the state, not about timing. */
module AudioElement {
  import opened Options

  /** One element: its URL, the verse it was started for, whether it is
      paused, and what its `onended` closure captured. */
  datatype Handle<C> = Handle(url: string, verse: int, paused: bool, context: C)

  /** `audioRef.current && !audioRef.current.paused` */
  predicate Audible<C>(hs: seq<Handle<C>>)
  {
    |hs| > 0 && !hs[|hs| - 1].paused
  }

  /** Every element other than the ref's current one is paused, so at most
      one element is ever heard. */
  predicate OnlyCurrentMayPlay<C>(hs: seq<Handle<C>>)
  {
    forall k :: 0 <= k < |hs| - 1 ==> hs[k].paused
  }

  /** The highlighted verse agrees with what is heard: a verse is marked as
      playing exactly when the current element is unpaused, and it is the
      verse that element was started for. */
  predicate Tracks<C>(playing: Option<int>, hs: seq<Handle<C>>)
  {
    && OnlyCurrentMayPlay(hs)
    && (Audible(hs) <==> playing.Some?)
    && (playing.Some? ==> hs[|hs| - 1].verse == playing.value)
  }

  /** `if (audioRef.current) audioRef.current.pause()`. A natural end leaves
      the element in the same state: at the end of playback the media
      element sets its paused flag. */
  function PauseCurrent<C>(hs: seq<Handle<C>>): (r: seq<Handle<C>>)
    ensures |r| == |hs| && !Audible(r)
    ensures forall k :: 0 <= k < |hs| - 1 ==> r[k] == hs[k]
    ensures |hs| > 0 ==> r[|hs| - 1] == hs[|hs| - 1].(paused := true)
    ensures OnlyCurrentMayPlay(hs) ==> forall k :: 0 <= k < |r| ==> r[k].paused
  {
    if hs == [] then hs else hs[|hs| - 1 := hs[|hs| - 1].(paused := true)]
  }

  /** Pause the current element, then `new Audio(url)`, store it in the ref
      and `play()` it. */
  function StartNew<C>(hs: seq<Handle<C>>, url: string, verse: int, context: C): (r: seq<Handle<C>>)
    ensures |r| == |hs| + 1 && Audible(r)
    ensures r[|hs|] == Handle(url, verse, false, context)
    ensures forall k :: 0 <= k < |hs| - 1 ==> r[k] == hs[k]
    ensures |hs| > 0 ==> r[|hs| - 1] == hs[|hs| - 1].(paused := true)
    ensures OnlyCurrentMayPlay(hs) ==> OnlyCurrentMayPlay(r)
  {
    PauseCurrent(hs) + [Handle(url, verse, false, context)]
  }
}

=== FILE: ayah_symbol.dfy ===
/** `toArabicNumber` of the verse-number ornament
    (src/components/ui/ayahSymbol.tsx): the decimal text of the number with
    every ASCII digit replaced by the Arabic-Indic digit of the same value. */
module AyahSymbol {
  import opened Options
  import opened Decimal

  /** U+0660 ARABIC-INDIC DIGIT ZERO. */
  const ArabicIndicZero: int := 0x0660

  predicate IsArabicIndicDigit(c: char)
  {
    ArabicIndicZero <= c as int <= ArabicIndicZero + 9
  }

  /** The callback of `.replace(/\d/g, ...)`, applied to every character:
      `/\d/` matches ASCII digits only. */
  function LocalizeChar(c: char): (r: char)
    ensures IsAsciiDigit(c) ==> IsArabicIndicDigit(r) && r as int - ArabicIndicZero == DigitValue(c)
    ensures !IsAsciiDigit(c) ==> r == c
  {
    if IsAsciiDigit(c) then (ArabicIndicZero + DigitValue(c)) as char else c
  }

  function Localize(s: string): (r: string)
    ensures |r| == |s|
    ensures forall k :: 0 <= k < |s| ==> r[k] == LocalizeChar(s[k])
  {
    seq(|s|, k requires 0 <= k < |s| => LocalizeChar(s[k]))
  }

  /** `toArabicNumber(num)`: same length as `num.toString()`; for a
      non-negative number every character is an Arabic-Indic digit; a minus
      sign passes through; no ASCII digit is left. */
  function ToArabicNumber(n: int): (r: string)
    ensures |r| == |NumberToString(n)|
    ensures n >= 0 ==> |r| == |Digits(n)| && forall k :: 0 <= k < |r| ==> IsArabicIndicDigit(r[k])
    ensures n < 0 ==> r[0] == '-' && forall k :: 1 <= k < |r| ==> IsArabicIndicDigit(r[k])
    ensures forall k :: 0 <= k < |r| ==> !IsAsciiDigit(r[k])
  {
    var s := NumberToString(n);
    assert n < 0 ==> forall k :: 1 <= k < |s| ==> s[k] == Digits(-n)[k - 1];
    Localize(s)
  }

  /** Undo the replacement: an Arabic-Indic digit becomes the ASCII digit
      of the same value; anything else is left alone. */
  function DelocalizeChar(c: char): char
  {
    if IsArabicIndicDigit(c) then ('0' as int + (c as int - ArabicIndicZero)) as char else c
  }

  function Delocalize(s: string): (r: string)
    ensures |r| == |s|
    ensures forall k :: 0 <= k < |s| ==> r[k] == DelocalizeChar(s[k])
  {
    seq(|s|, k requires 0 <= k < |s| => DelocalizeChar(s[k]))
  }

  /** Reads an ornament's number back. */
  function FromArabicNumber(s: string): Option<int>
  {
    ParseNumber(Delocalize(s))
  }

  /** Delocalizing undoes localizing on any text without Arabic-Indic
      digits, such as the decimal text of a number. */
  lemma DelocalizeUndoesLocalize(s: string)
    requires forall k :: 0 <= k < |s| ==> !IsArabicIndicDigit(s[k])
    ensures Delocalize(Localize(s)) == s
  {
    var r := Delocalize(Localize(s));
    forall k | 0 <= k < |s| ensures r[k] == s[k] {
      if IsAsciiDigit(s[k]) {
        assert DigitChar(DigitValue(s[k])) == s[k];
      }
    }
  }

  /** The conversion has an inverse: reading the ornament gives the number
      back. */
  lemma ArabicNumberRoundTrip(n: int)
    ensures FromArabicNumber(ToArabicNumber(n)) == Some(n)
  {
    var s := NumberToString(n);
    assert forall k :: 0 <= k < |s| ==> !IsArabicIndicDigit(s[k]) by {
      if n < 0 {
        assert forall k :: 1 <= k < |s| ==> s[k] == Digits(-n)[k - 1];
      }
    }
    DelocalizeUndoesLocalize(s);
    NumberToStringRoundTrip(n);
  }

  /** So distinct numbers get distinct ornaments. */
  lemma ArabicNumberInjective(a: int, b: int)
    requires ToArabicNumber(a) == ToArabicNumber(b)
    ensures a == b
  {
    ArabicNumberRoundTrip(a);
    ArabicNumberRoundTrip(b);
  }
}

=== FILE: decimal.dfy ===
/** Decimal text of integers, as JavaScript's `num.toString()` and a
    template literal `${num}` write them, and reading it back. */
module Decimal {
  import opened Options

  predicate IsAsciiDigit(c: char)
  {
    '0' <= c <= '9'
  }

  predicate AllDigits(s: string)
  {
    forall k :: 0 <= k < |s| ==> IsAsciiDigit(s[k])
  }

  function DigitChar(d: int): (c: char)
    requires 0 <= d < 10
    ensures IsAsciiDigit(c)
  {
    ('0' as int + d) as char
  }

  function DigitValue(c: char): (d: int)
    requires IsAsciiDigit(c)
    ensures 0 <= d < 10 && DigitChar(d) == c
  {
    c as int - '0' as int
  }

  function Pow10(k: nat): (p: nat)
    ensures p >= 1
  {
    if k == 0 then 1 else 10 * Pow10(k - 1)
  }

  /** The digits of `n`, most significant first. */
  function Digits(n: nat): (s: string)
    ensures |s| >= 1 && AllDigits(s)
    ensures s[0] == '0' ==> n == 0
    decreases n
  {
    if n < 10 then [DigitChar(n)] else Digits(n / 10) + [DigitChar(n % 10)]
  }

  /** `String(n)` for an integer `n`: a minus sign before the digits of a
      negative number. */
  function NumberToString(n: int): string
  {
    if n < 0 then "-" + Digits(-n) else Digits(n)
  }

  function ParseDigits(s: string): nat
    requires AllDigits(s)
  {
    if s == [] then 0 else ParseDigits(s[..|s| - 1]) * 10 + DigitValue(s[|s| - 1])
  }

  /** Reads back a decimal integer: optional minus sign, then at least one
      digit. */
  function ParseNumber(s: string): Option<int>
  {
    if |s| > 1 && s[0] == '-' && AllDigits(s[1..]) then Some(0 - ParseDigits(s[1..]) as int)
    else if |s| > 0 && AllDigits(s) then Some(ParseDigits(s))
    else None
  }

  lemma {:induction false} ParseDigitsInverse(n: nat)
    ensures ParseDigits(Digits(n)) == n
    decreases n
  {
    if n >= 10 {
      var s := Digits(n);
      assert s[..|s| - 1] == Digits(n / 10);
      ParseDigitsInverse(n / 10);
    }
  }

  /** The text after the minus sign of a negative number is its magnitude's
      digits. */
  lemma NegativeTextTail(n: int)
    requires n < 0
    ensures |NumberToString(n)| > 1 && NumberToString(n)[0] == '-'
    ensures NumberToString(n)[1..] == Digits(-n)
  {
  }

  /** Reading the decimal text of an integer gives the integer back. */
  lemma {:induction false} NumberToStringRoundTrip(n: int)
    ensures ParseNumber(NumberToString(n)) == Some(n)
  {
    var s := NumberToString(n);
    if n < 0 {
      NegativeTextTail(n);
      assert AllDigits(s[1..]);
      ParseDigitsInverse(-n);
      assert ParseNumber(s) == Some(0 - ParseDigits(s[1..]) as int);
    } else {
      assert IsAsciiDigit(s[0]);
      ParseDigitsInverse(n);
      assert ParseNumber(s) == Some(ParseDigits(s) as int);
    }
  }

  /** The digit count of a natural number: `k` digits exactly when
      10^(k-1) <= n < 10^k, and one digit for 0. */
  lemma {:induction false} DigitCount(n: nat)
    ensures n < Pow10(|Digits(n)|)
    ensures n > 0 ==> Pow10(|Digits(n)| - 1) <= n
    ensures |Digits(n)| == 1 <==> n < 10
    decreases n
  {
    if n >= 10 {
      DigitCount(n / 10);
      assert |Digits(n)| == |Digits(n / 10)| + 1;
    }
  }
}

=== FILE: juz_player.dfy ===
/** Playback in the juz page view (src/pages/PageView.tsx): `playAudio`,
    the `onended` callback it installs, the 500 ms auto-advance timer and
    `stopAutoPlay`.

    Every closure sees the values of the render that created it. The model
    makes that explicit: a `Scope` is what one render's `playAudio` sees,
    each audio element carries the scope of the `playAudio` that created it
    (its `onended` closure), and a pending timer carries the same scope,
    because it calls that same `playAudio` again. The auto-play flag is the
    one value read live, through `isAutoPlayingRef`. */
module JuzPlayer {
  import opened Options
  import opened Quran
  import opened AudioElement

  /** `playingAyah`, `currentJuzPage` and `audioData` of one render. */
  datatype Scope = Scope(playingAyah: Option<int>, page: Option<PageGroup>, audioData: Option<seq<AudioVerse>>)

  /** Pause between the end of one verse and the start of the next, in ms. */
  const AdvanceDelay: nat := 500

  /** A `setTimeout` that has not fired yet: after `delay` ms it calls the
      `playAudio` of `scope` with `url` and `verse`. */
  datatype Pending = Pending(url: string, verse: int, delay: nat, scope: Scope)

  /** Playback state: `playingAyah`, `isAutoPlaying`, the audio elements
      created so far (the last one is `audioRef.current`) and the timers
      not yet fired. */
  datatype Player = Player(
    playingAyah: Option<int>,
    autoPlaying: bool,
    handles: seq<Handle<Scope>>,
    pending: seq<Pending>)

  const Idle := Player(None, false, [], [])

  /** The verses `onended` searches: `currentJuzPage?.ayahs || []`. */
  function PageAyahs(s: Scope): seq<Verse>
  {
    if s.page.Some? then s.page.value.ayahs else []
  }

  /** Position `j` holds the verse that follows verse `n` on the page, as
      `ayahs[ayahs.findIndex(a => a.number === n) + 1]` finds it: the slot
      after the first occurrence of `n`, or the first slot when `n` is not
      on the page at all. */
  predicate IsFollowing(ayahs: seq<Verse>, n: int, j: int)
  {
    && 0 <= j < |ayahs|
    && if j == 0 then !OnPageNumbered(ayahs, n)
       else ayahs[j - 1].number == n && forall i :: 0 <= i < j - 1 ==> ayahs[i].number != n
  }

  /** A timer is well formed: 500 ms, for a verse of its captured page that
      has audio in its captured audio data, with that audio's URL. */
  predicate ValidPending(t: Pending)
  {
    && t.delay == AdvanceDelay
    && t.scope.page.Some?
    && OnPageNumbered(t.scope.page.value.ayahs, t.verse)
    && t.scope.audioData.Some?
    && HasAudio(FindAudio(t.scope.audioData.value, t.verse))
    && t.url == AudioUrl(FindAudio(t.scope.audioData.value, t.verse))
  }

  /** The state invariant: at most one element is heard, the highlighted
      verse is the one heard, and every timer targets a verse of the page it
      captured. */
  predicate Consistent(p: Player)
  {
    && Tracks(p.playingAyah, p.handles)
    && forall k :: 0 <= k < |p.pending| ==> ValidPending(p.pending[k])
  }

  /** `playAudio` takes its pause branch: the verse asked for is the one
      `playingAyah` names in the caller's render, and the current element is
      unpaused. */
  predicate PausesInstead(p: Player, n: int, scope: Scope)
  {
    scope.playingAyah == Some(n) && Audible(p.handles)
  }

  /** `playAudio(url, n)` as called from the render `scope`. */
  function PlayAudio(p: Player, url: string, n: int, scope: Scope): (r: Player)
    ensures r.autoPlaying == p.autoPlaying && r.pending == p.pending
    ensures PausesInstead(p, n, scope) ==>
              && r.playingAyah == None
              && |r.handles| == |p.handles|
              && !Audible(r.handles)
              && forall k :: 0 <= k < |p.handles| - 1 ==> r.handles[k] == p.handles[k]
    ensures !PausesInstead(p, n, scope) ==>
              && r.playingAyah == Some(n)
              && |r.handles| == |p.handles| + 1
              && r.handles[|p.handles|] == Handle(url, n, false, scope)
              && (|p.handles| > 0 ==> r.handles[|p.handles| - 1].paused)
    ensures OnlyCurrentMayPlay(p.handles) ==> Tracks(r.playingAyah, r.handles)
    ensures Consistent(p) ==> Consistent(r)
  {
    if PausesInstead(p, n, scope) then
      p.(playingAyah := None, handles := PauseCurrent(p.handles))
    else
      p.(playingAyah := Some(n), handles := StartNew(p.handles, url, n, scope))
  }

  lemma {:induction false} FollowingFromFindIndex(ayahs: seq<Verse>, n: int, j: int)
    ensures IsFollowing(ayahs, n, j) <==> j == FindIndex(ayahs, n) + 1 && j < |ayahs|
  {
    var k := FindIndex(ayahs, n);
    if k >= 0 {
      assert OnPageNumbered(ayahs, n);
    }
  }

  /** The `onended` callback of the current element: the element is paused
      (it has ended), `playingAyah` is cleared and, in auto mode, the verse
      following the finished one on the captured page is scheduled when it
      has audio, auto mode ends when there is no following verse, and
      nothing happens when it has no audio. Only an unpaused element can
      end, so with nothing audible the event changes nothing. */
  function NaturalEnd(p: Player): (r: Player)
    ensures !Audible(p.handles) ==> r == p
    ensures Audible(p.handles) ==> r.playingAyah == None
    ensures !Audible(r.handles) && |r.handles| == |p.handles|
    ensures forall k :: 0 <= k < |p.handles| - 1 ==> r.handles[k] == p.handles[k]
    ensures r.autoPlaying ==> p.autoPlaying
    ensures |p.pending| <= |r.pending| <= |p.pending| + 1
    ensures r.pending[..|p.pending|] == p.pending
    ensures |r.pending| > |p.pending| ==>
              var h := p.handles[|p.handles| - 1];
              var t := r.pending[|p.pending|];
              && p.autoPlaying && r.autoPlaying
              && t.scope == h.context
              && t.delay == AdvanceDelay
              && exists j :: IsFollowing(PageAyahs(h.context), h.verse, j)
                             && t.verse == PageAyahs(h.context)[j].number
    ensures Consistent(p) ==> Consistent(r)
  {
    if !Audible(p.handles) then p
    else
      var h := p.handles[|p.handles| - 1];
      var ended := p.(playingAyah := None, handles := PauseCurrent(p.handles));
      if p.autoPlaying && h.context.audioData.Some? then
        var ayahs := PageAyahs(h.context);
        var j := FindIndex(ayahs, h.verse) + 1;
        if j < |ayahs| then
          var next := ayahs[j];
          var a := FindAudio(h.context.audioData.value, next.number);
          FollowingFromFindIndex(ayahs, h.verse, j);
          if HasAudio(a) then
            ended.(pending := p.pending + [Pending(AudioUrl(a), next.number, AdvanceDelay, h.context)])
          else ended
        else ended.(autoPlaying := false)
      else ended
  }

  /** A timer fires: the `playAudio` it captured runs with the verse it was
      given. It does not consult the auto-play flag. An index that names no
      timer changes nothing. */
  function FirePending(p: Player, i: int): (r: Player)
    ensures !(0 <= i < |p.pending|) ==> r == p
    ensures 0 <= i < |p.pending| ==>
              var t := p.pending[i];
              && r.pending == p.pending[..i] + p.pending[i + 1..]
              && r.autoPlaying == p.autoPlaying
              && (PausesInstead(p, t.verse, t.scope) ==>
                    r.playingAyah == None && !Audible(r.handles) && |r.handles| == |p.handles|)
              && (!PausesInstead(p, t.verse, t.scope) ==>
                    && r.playingAyah == Some(t.verse) && Audible(r.handles)
                    && |r.handles| == |p.handles| + 1
                    && r.handles[|r.handles| - 1] == Handle(t.url, t.verse, false, t.scope))
    ensures Consistent(p) ==> Consistent(r)
  {
    if 0 <= i < |p.pending| then
      var t := p.pending[i];
      PlayAudio(p.(pending := p.pending[..i] + p.pending[i + 1..]), t.url, t.verse, t.scope)
    else p
  }

  /** `stopAutoPlay`: auto mode off, the current element paused, no verse
      highlighted. Timers already set are left to fire. */
  function StopAutoPlay(p: Player): (r: Player)
    ensures !r.autoPlaying && r.playingAyah == None && !Audible(r.handles)
    ensures |r.handles| == |p.handles|
    ensures forall k :: 0 <= k < |p.handles| - 1 ==> r.handles[k] == p.handles[k]
    ensures r.pending == p.pending
    ensures Consistent(p) ==> Consistent(r)
  {
    Player(None, false, PauseCurrent(p.handles), p.pending)
  }

  /** Without auto mode, a natural end never schedules anything. */
  lemma EndWithoutAutoSchedulesNothing(p: Player)
    requires !p.autoPlaying
    ensures NaturalEnd(p).pending == p.pending && !NaturalEnd(p).autoPlaying
  {
  }

  /** In auto mode with audio data, when the verse after the finished one
      on the captured page has audio, exactly that verse is scheduled, 500 ms
      later, and auto mode stays on. */
  lemma {:induction false} EndSchedulesFollowingVerse(p: Player, j: int)
    requires Audible(p.handles) && p.autoPlaying
    requires var h := p.handles[|p.handles| - 1];
             && h.context.audioData.Some?
             && IsFollowing(PageAyahs(h.context), h.verse, j)
             && HasAudio(FindAudio(h.context.audioData.value, PageAyahs(h.context)[j].number))
    ensures var h := p.handles[|p.handles| - 1];
            var next := PageAyahs(h.context)[j].number;
            var url := AudioUrl(FindAudio(h.context.audioData.value, next));
            && NaturalEnd(p).pending == p.pending + [Pending(url, next, AdvanceDelay, h.context)]
            && NaturalEnd(p).autoPlaying
            && NaturalEnd(p).playingAyah == None
  {
    var h := p.handles[|p.handles| - 1];
    FollowingFromFindIndex(PageAyahs(h.context), h.verse, j);
  }

  /** In auto mode with audio data, when the finished verse is the last on
      the captured page, auto mode turns off and nothing is scheduled. */
  lemma {:induction false} EndOfPageStopsAuto(p: Player)
    requires Audible(p.handles) && p.autoPlaying
    requires var h := p.handles[|p.handles| - 1];
             && h.context.audioData.Some?
             && forall j :: !IsFollowing(PageAyahs(h.context), h.verse, j)
    ensures !NaturalEnd(p).autoPlaying && NaturalEnd(p).pending == p.pending
  {
    var h := p.handles[|p.handles| - 1];
    var j := FindIndex(PageAyahs(h.context), h.verse) + 1;
    FollowingFromFindIndex(PageAyahs(h.context), h.verse, j);
  }

  /** In auto mode, when the following verse has no audio, nothing is
      scheduled and auto mode is left on. */
  lemma {:induction false} SilentNextVerseKeepsAuto(p: Player, j: int)
    requires Audible(p.handles) && p.autoPlaying
    requires var h := p.handles[|p.handles| - 1];
             && h.context.audioData.Some?
             && IsFollowing(PageAyahs(h.context), h.verse, j)
             && !HasAudio(FindAudio(h.context.audioData.value, PageAyahs(h.context)[j].number))
    ensures NaturalEnd(p).autoPlaying && NaturalEnd(p).pending == p.pending
  {
    var h := p.handles[|p.handles| - 1];
    FollowingFromFindIndex(PageAyahs(h.context), h.verse, j);
  }
}

=== FILE: options.dfy ===
/** An optional value: a present value, or JavaScript's `null` / `undefined`. */
module Options {

  datatype Option<+T> = None | Some(value: T)

}

=== FILE: page_view.dfy ===
/** The juz page view (src/pages/PageView.tsx) as one state record and one
    step function per user action or browser event: juz selection, arrival
    of fetched data, page navigation, the play controls, the end of a verse
    and the firing of the auto-advance timer. */
module PageView {
  import opened Options
  import opened Quran
  import opened AudioElement
  import opened Pagination
  import opened JuzPlayer

  datatype Direction = Next | Prev

  /** The component's state: `selectedJuz`, `juzPageIndex`, the fetched
      `juzData` verses and `audioData`, and playback. */
  datatype View = View(
    selectedJuz: Option<int>,
    index: int,
    juzData: Option<seq<Verse>>,
    audioData: Option<seq<AudioVerse>>,
    player: Player)

  const Initial := View(None, 0, None, None, Idle)

  function PageCount(v: View): int
  {
    |PagesInJuz(v.juzData)|
  }

  /** `pagesInJuz[juzPageIndex] || null`: a page exactly when the index is
      in range, and then a non-empty page holding exactly the juz verses
      printed on it. */
  function CurrentJuzPage(v: View): (r: Option<PageGroup>)
    ensures r.Some? <==> 0 <= v.index < PageCount(v)
    ensures r.Some? ==> && v.juzData.Some?
                        && r.value.ayahs != []
                        && r.value.ayahs == OnPage(v.juzData.value, r.value.page)
    ensures r.Some? ==> forall k :: 0 <= k < |PagesInJuz(v.juzData)| ==>
                          (PagesInJuz(v.juzData)[k].page < r.value.page <==> k < v.index)
  {
    var gs := PagesInJuz(v.juzData);
    if 0 <= v.index < |gs| then
      GroupingIsPartition(v.juzData.value, gs);
      Some(gs[v.index])
    else None
  }

  /** What the closures created in the current render see. */
  function RenderScope(v: View): Scope
  {
    Scope(v.player.playingAyah, CurrentJuzPage(v), v.audioData)
  }

  /** The index `handlePageChange` moves to:
      `Math.min(len - 1, i + 1)` forward, `Math.max(0, i - 1)` backward. */
  function MovedIndex(len: int, i: int, dir: Direction): (r: int)
    ensures 0 <= i < len ==> 0 <= r < len
    ensures dir == Next ==> r <= len - 1 && r <= i + 1 && (r == len - 1 || r == i + 1)
    ensures dir == Prev ==> r >= 0 && r >= i - 1 && (r == 0 || r == i - 1)
  {
    match dir
    case Next => if len - 1 < i + 1 then len - 1 else i + 1
    case Prev => if 0 > i - 1 then 0 else i - 1
  }

  /** `disabled={juzPageIndex === 0}` on Previous. */
  predicate PrevDisabled(v: View)
  {
    v.index == 0
  }

  /** `disabled={juzPageIndex >= pagesInJuz.length - 1}` on Next. */
  predicate NextDisabled(v: View)
  {
    v.index >= PageCount(v) - 1
  }

  predicate Disabled(v: View, dir: Direction)
  {
    if dir == Next then NextDisabled(v) else PrevDisabled(v)
  }

  /** The page and its controls are rendered once a juz is selected. */
  predicate PageShown(v: View)
  {
    v.selectedJuz.Some?
  }

  /** A verse's play button is rendered: the verse is on the current page
      and its audio verse, found by number, has a URL. */
  predicate PlayButtonShown(v: View, n: int)
    ensures PlayButtonShown(v, n) ==>
              && v.juzData.Some? && CurrentJuzPage(v).Some? && v.audioData.Some?
              && (exists j :: 0 <= j < |v.juzData.value| && v.juzData.value[j].number == n
                              && v.juzData.value[j].page == CurrentJuzPage(v).value.page)
              && exists k :: 0 <= k < |v.audioData.value| && v.audioData.value[k].number == n
  {
    && PageShown(v)
    && CurrentJuzPage(v).Some?
    && OnPageNumbered(CurrentJuzPage(v).value.ayahs, n)
    && v.audioData.Some?
    && HasAudio(FindAudio(v.audioData.value, n))
  }

  /** The page header with "Play Page" / "Stop" is rendered only when the
      page opens with the first verse of a surah. */
  predicate HeaderShown(v: View)
    ensures HeaderShown(v) ==> v.juzData.Some? && 0 <= v.index < PageCount(v)
  {
    && PageShown(v)
    && CurrentJuzPage(v).Some?
    && |CurrentJuzPage(v).value.ayahs| > 0
    && CurrentJuzPage(v).value.ayahs[0].numberInSurah == 1
  }

  /** `handlePageChange(direction)`: stop auto play, then move the index. */
  function HandlePageChange(v: View, dir: Direction): (r: View)
    ensures r.index == MovedIndex(PageCount(v), v.index, dir)
    ensures !r.player.autoPlaying && r.player.playingAyah == None && !Audible(r.player.handles)
    ensures r.player.pending == v.player.pending
    ensures r.juzData == v.juzData && r.audioData == v.audioData && r.selectedJuz == v.selectedJuz
    ensures Consistent(v.player) ==> Consistent(r.player)
  {
    var stopped := StopAutoPlay(v.player);
    v.(player := stopped, index := MovedIndex(PageCount(v), v.index, dir))
  }

  /** The juz selector's `onChange`: new selection, index back to 0, auto
      play stopped (the effect cleanup pauses the same element again). The
      old verses stay until the new fetch delivers. */
  function SelectJuz(v: View, juz: Option<int>): (r: View)
    ensures r.selectedJuz == juz && r.index == 0
    ensures !r.player.autoPlaying && r.player.playingAyah == None && !Audible(r.player.handles)
    ensures r.juzData == v.juzData && r.audioData == v.audioData
    ensures Consistent(v.player) ==> Consistent(r.player)
  {
    View(juz, 0, v.juzData, v.audioData, StopAutoPlay(v.player))
  }

  /** `startAutoPlay`: nothing without a non-empty current page and audio
      data; otherwise auto mode on, and the page's first verse is played
      when it has audio. */
  function StartAutoPlay(v: View): (r: View)
    ensures (|| CurrentJuzPage(v).None?
             || |CurrentJuzPage(v).value.ayahs| == 0
             || v.audioData.None?) ==> r == v
    ensures r.index == v.index && r.juzData == v.juzData && r.audioData == v.audioData
    ensures r.player.pending == v.player.pending
    ensures CurrentJuzPage(v).Some? && |CurrentJuzPage(v).value.ayahs| > 0 && v.audioData.Some? ==>
              var first := CurrentJuzPage(v).value.ayahs[0];
              && r.player.autoPlaying
              && (!HasAudio(FindAudio(v.audioData.value, first.number)) ==>
                    r.player == v.player.(autoPlaying := true))
              && (HasAudio(FindAudio(v.audioData.value, first.number))
                  && !PausesInstead(v.player, first.number, RenderScope(v)) ==>
                    r.player.playingAyah == Some(first.number) && Audible(r.player.handles))
              && (HasAudio(FindAudio(v.audioData.value, first.number))
                  && PausesInstead(v.player, first.number, RenderScope(v)) ==>
                    r.player.playingAyah == None && !Audible(r.player.handles))
    ensures Consistent(v.player) ==> Consistent(r.player)
  {
    var page := CurrentJuzPage(v);
    if page.None? || |page.value.ayahs| == 0 || v.audioData.None? then v
    else
      var on := v.player.(autoPlaying := true);
      var first := page.value.ayahs[0];
      var a := FindAudio(v.audioData.value, first.number);
      if HasAudio(a) then v.(player := PlayAudio(on, AudioUrl(a), first.number, RenderScope(v)))
      else v.(player := on)
  }

  datatype Event =
    | ChooseJuz(juz: Option<int>)
    | DataLoaded(verses: Option<seq<Verse>>, audio: Option<seq<AudioVerse>>)
    | Flip(dir: Direction)
    | ClickPlay(verse: int)
    | ClickPlayPage
    | ClickStop
    | AudioEnded
    | TimerFired(which: int)

  /** Next or Previous: only an enabled, rendered button does anything. */
  function FlipStep(v: View, dir: Direction): View
  {
    if PageShown(v) && !Disabled(v, dir) then HandlePageChange(v, dir) else v
  }

  /** A verse's play button. */
  function ClickPlayStep(v: View, n: int): View
  {
    if PlayButtonShown(v, n) then
      v.(player := PlayAudio(v.player, AudioUrl(FindAudio(v.audioData.value, n)), n, RenderScope(v)))
    else v
  }

  /** "Play Page", rendered in the header while auto mode is off. */
  function PlayPageStep(v: View): View
  {
    if HeaderShown(v) && !v.player.autoPlaying then StartAutoPlay(v) else v
  }

  /** "Stop", rendered in the header while auto mode is on. */
  function StopStep(v: View): View
  {
    if HeaderShown(v) && v.player.autoPlaying then v.(player := StopAutoPlay(v.player)) else v
  }

  /** The header controls: with no header neither "Play Page" nor "Stop"
      can be clicked; with one, "Play Page" works only while auto mode is
      off and turns it on once audio data is there, and "Stop" works only
      while auto mode is on and turns it off. */
  lemma HeaderControls(v: View)
    ensures !HeaderShown(v) ==> PlayPageStep(v) == v && StopStep(v) == v
    ensures HeaderShown(v) && v.player.autoPlaying ==>
              PlayPageStep(v) == v && !StopStep(v).player.autoPlaying
    ensures HeaderShown(v) && !v.player.autoPlaying ==>
              && StopStep(v) == v
              && (v.audioData.Some? <==> PlayPageStep(v).player.autoPlaying)
  {
  }

  /** A verse's play button: without it the click does nothing; with it the
      verse starts unless `playAudio` takes its pause branch, in which case
      nothing is heard afterwards. */
  lemma PlayButtonGate(v: View, n: int)
    ensures !PlayButtonShown(v, n) ==> ClickPlayStep(v, n) == v
    ensures PlayButtonShown(v, n) && !PausesInstead(v.player, n, RenderScope(v)) ==>
              ClickPlayStep(v, n).player.playingAyah == Some(n) && Audible(ClickPlayStep(v, n).player.handles)
    ensures PlayButtonShown(v, n) && PausesInstead(v.player, n, RenderScope(v)) ==>
              ClickPlayStep(v, n).player.playingAyah == None && !Audible(ClickPlayStep(v, n).player.handles)
    ensures ClickPlayStep(v, n).player.autoPlaying == v.player.autoPlaying
  {
  }

  /** One event. A control that is not rendered or is disabled cannot be
      clicked, so such a click changes nothing. */
  function Step(v: View, e: Event): View
  {
    match e
    case ChooseJuz(juz) => SelectJuz(v, juz)
    case DataLoaded(verses, audio) => v.(juzData := verses, audioData := audio)
    case Flip(dir) => FlipStep(v, dir)
    case ClickPlay(n) => ClickPlayStep(v, n)
    case ClickPlayPage => PlayPageStep(v)
    case ClickStop => StopStep(v)
    case AudioEnded => v.(player := NaturalEnd(v.player))
    case TimerFired(i) => v.(player := FirePending(v.player, i))
  }

  function Run(v: View, es: seq<Event>): View
    decreases |es|
  {
    if es == [] then v else Run(Step(v, es[0]), es[1..])
  }

  predicate Invariant(v: View)
  {
    Consistent(v.player) && v.index >= 0
  }

  /** Every event keeps the invariant: at most one element heard, the
      highlighted verse is the one heard, timers target verses of the page
      they captured, and the index is never negative. */
  lemma StepPreservesInvariant(v: View, e: Event)
    requires Invariant(v)
    ensures Invariant(Step(v, e))
  {
  }

  lemma {:induction false} RunPreservesInvariant(v: View, es: seq<Event>)
    requires Invariant(v)
    ensures Invariant(Run(v, es))
    decreases |es|
  {
    if es != [] {
      StepPreservesInvariant(v, es[0]);
      RunPreservesInvariant(Step(v, es[0]), es[1..]);
    }
  }

  /** From the initial state, at most one audio element is ever heard and
      the highlighted verse is always the one being heard. */
  lemma {:induction false} AtMostOneAudible(es: seq<Event>)
    ensures OnlyCurrentMayPlay(Run(Initial, es).player.handles)
    ensures Tracks(Run(Initial, es).player.playingAyah, Run(Initial, es).player.handles)
  {
    RunPreservesInvariant(Initial, es);
  }

  /** The navigation buttons are disabled exactly at the ends of the page
      list, and an enabled button moves the index by one and keeps it in
      range. */
  lemma NavigationBounds(v: View, dir: Direction)
    ensures 0 <= v.index < PageCount(v) ==>
              && (PrevDisabled(v) <==> v.index == 0)
              && (NextDisabled(v) <==> v.index == PageCount(v) - 1)
              && 0 <= Step(v, Flip(dir)).index < PageCount(v)
              && (PageShown(v) && !Disabled(v, dir) ==>
                    Step(v, Flip(dir)).index == (if dir == Next then v.index + 1 else v.index - 1))
  {
  }

  /** Any effective navigation or juz change stops auto play and silences
      the current element before anything else. */
  lemma NavigationStopsPlayback(v: View, e: Event)
    requires e.ChooseJuz? || (e.Flip? && PageShown(v) && !Disabled(v, e.dir))
    ensures !Step(v, e).player.autoPlaying
    ensures Step(v, e).player.playingAyah == None
    ensures !Audible(Step(v, e).player.handles)
  {
  }

  // A concrete page: verses 101 and 102 with audio, 103 without.

  const S3 := SurahRef(3, "Al-Imran")
  const A101 := Verse(101, 1, 5, 9, "first", S3)
  const A102 := Verse(102, 2, 5, 9, "second", S3)
  const A103 := Verse(103, 3, 5, 9, "third", S3)
  const Recitation := [AudioVerse(101, Some("a101.mp3")), AudioVerse(102, Some("a102.mp3")), AudioVerse(103, None)]

  lemma OnePage()
    ensures PagesInJuz(Some([A101, A102, A103])) == [PageGroup(5, [A101, A102, A103])]
  {
    var vs := [A101, A102, A103];
    var gs := [PageGroup(5, vs)];
    assert Pages(vs) == {5} by {
      assert A101 in vs;
    }
    assert PageSet(gs) == {5} by {
      assert gs[0] in gs;
    }
    assert OnPage(vs, 5) == vs by {
      assert vs[1..] == [A102, A103];
      assert vs[1..][1..] == [A103];
    }
    GroupingIsUnique(vs, gs, PagesInJuz(Some(vs)));
  }

  function ScenarioView(p: Player): View
  {
    View(Some(4), 0, Some([A101, A102, A103]), Some(Recitation), p)
  }

  function ScenarioScope(): Scope
  {
    Scope(None, Some(PageGroup(5, [A101, A102, A103])), Some(Recitation))
  }

  lemma ScenarioPage(p: Player)
    ensures CurrentJuzPage(ScenarioView(p)) == Some(PageGroup(5, [A101, A102, A103]))
    ensures HeaderShown(ScenarioView(p))
  {
    OnePage();
  }

  // The states the "Play Page" run passes through.

  const First := Handle("a101.mp3", 101, false, ScenarioScope())
  const FirstDone := Handle("a101.mp3", 101, true, ScenarioScope())
  const Second := Handle("a102.mp3", 102, false, ScenarioScope())
  const SecondDone := Handle("a102.mp3", 102, true, ScenarioScope())
  const Started := Player(Some(101), true, [First], [])
  const Waiting := Player(None, true, [FirstDone], [Pending("a102.mp3", 102, AdvanceDelay, ScenarioScope())])
  const PlayingSecond := Player(Some(102), true, [FirstDone, Second], [])
  const Finished := Player(None, true, [FirstDone, SecondDone], [])

  lemma ScenarioFirstPlay()
    ensures PlayAudio(Idle.(autoPlaying := true), "a101.mp3", 101, ScenarioScope()) == Started
  {
    assert StartNew([], "a101.mp3", 101, ScenarioScope()) == [First];
  }

  lemma ScenarioAutoStart()
    ensures StartAutoPlay(ScenarioView(Idle)) == ScenarioView(Started)
  {
    var v := ScenarioView(Idle);
    ScenarioPage(Idle);
    var scope := RenderScope(v);
    assert scope == ScenarioScope();
    var a := FindAudio(Recitation, 101);
    assert a == Some(Recitation[0]);
    ScenarioFirstPlay();
  }

  lemma ScenarioStart()
    ensures Step(ScenarioView(Idle), ClickPlayPage) == ScenarioView(Started)
  {
    ScenarioPage(Idle);
    ClickPlayPageStep(ScenarioView(Idle));
    PlayPageRunsStartAutoPlay(ScenarioView(Idle));
    ScenarioAutoStart();
  }

  // One lemma per event kind, unfolding `Step` once on a symbolic view so
  // that the concrete runs below need not.

  lemma ClickPlayPageStep(v: View)
    ensures Step(v, ClickPlayPage) == PlayPageStep(v)
  {
  }

  lemma FlipStepIs(v: View, dir: Direction)
    ensures Step(v, Flip(dir)) == FlipStep(v, dir)
  {
  }

  lemma EndStepIs(v: View)
    ensures Step(v, AudioEnded) == v.(player := NaturalEnd(v.player))
  {
  }

  lemma TimerStepIs(v: View, i: int)
    ensures Step(v, TimerFired(i)) == v.(player := FirePending(v.player, i))
  {
  }

  /** "Play Page" is rendered while auto mode is off on a page that opens a
      surah, and pressing it runs `startAutoPlay`. */
  lemma PlayPageRunsStartAutoPlay(v: View)
    requires HeaderShown(v) && !v.player.autoPlaying
    ensures PlayPageStep(v) == StartAutoPlay(v)
  {
  }

  lemma ScenarioFirstEnd()
    ensures Step(ScenarioView(Started), AudioEnded) == ScenarioView(Waiting)
  {
    EndStepIs(ScenarioView(Started));
    assert FindIndex([A101, A102, A103], 101) == 0;
    assert FindAudio(Recitation, 102) == Some(Recitation[1]);
  }

  lemma ScenarioTimer()
    ensures Step(ScenarioView(Waiting), TimerFired(0)) == ScenarioView(PlayingSecond)
  {
    TimerStepIs(ScenarioView(Waiting), 0);
  }

  lemma ScenarioSecondEnd()
    ensures Step(ScenarioView(PlayingSecond), AudioEnded) == ScenarioView(Finished)
  {
    EndStepIs(ScenarioView(PlayingSecond));
    assert FindIndex([A101, A102, A103], 102) == 1;
    assert FindAudio(Recitation, 103) == Some(Recitation[2]);
  }

  /** "Play Page" on [101, 102, 103-without-audio]: 101 plays, on its end
      102 is scheduled 500 ms later, the timer plays 102, and on its end
      nothing is scheduled because 103 has no audio. Auto mode stays on with
      nothing playing. */
  lemma AutoPlayScenario()
    ensures var end := Run(ScenarioView(Idle), [ClickPlayPage, AudioEnded, TimerFired(0), AudioEnded]).player;
            && end.playingAyah == None
            && end.pending == []
            && end.autoPlaying
            && !Audible(end.handles)
            && |end.handles| == 2
            && end.handles[0].verse == 101
            && end.handles[1].verse == 102
  {
    ScenarioStart();
    ScenarioFirstEnd();
    ScenarioTimer();
    ScenarioSecondEnd();
    var es := [ClickPlayPage, AudioEnded, TimerFired(0), AudioEnded];
    assert es[1..] == [AudioEnded, TimerFired(0), AudioEnded];
    assert es[1..][1..] == [TimerFired(0), AudioEnded];
    assert es[1..][1..][1..] == [AudioEnded];
    assert es[1..][1..][1..][1..] == [];
  }

  // Pending auto-advance survives a stop.

  /** As written: after an effective page change, a timer set before it
      still fires and starts its verse, although auto mode is off. */
  lemma StaleAdvanceSurvivesNavigation(v: View, dir: Direction)
    requires PageShown(v) && !Disabled(v, dir)
    requires |v.player.pending| > 0
    ensures var w := Step(Step(v, Flip(dir)), TimerFired(0));
            && !w.player.autoPlaying
            && w.player.playingAyah == Some(v.player.pending[0].verse)
            && Audible(w.player.handles)
  {
    var u := HandlePageChange(v, dir);
    FlipStepIs(v, dir);
    assert FlipStep(v, dir) == u;
    TimerStepIs(u, 0);
    var t := u.player.pending[0];
    assert u.player.playingAyah == None;
    assert !PausesInstead(u.player, t.verse, t.scope);
    var fired := FirePending(u.player, 0);
    assert !fired.autoPlaying && fired.playingAyah == Some(t.verse) && Audible(fired.handles);
  }

  /** As written: a timer calls the `playAudio` of the render that started
      the finished verse, so it compares against that render's
      `playingAyah`. When that names the timer's own verse and an element is
      heard (the reader restarted the verse during the 500 ms), the timer
      pauses it instead: auto mode stays on and nothing more is scheduled. */
  lemma StaleTimerPausesRestartedVerse(v: View, i: int)
    requires 0 <= i < |v.player.pending|
    requires v.player.pending[i].scope.playingAyah == Some(v.player.pending[i].verse)
    requires Audible(v.player.handles)
    ensures var w := Step(v, TimerFired(i));
            && w.player.playingAyah == None
            && !Audible(w.player.handles)
            && w.player.autoPlaying == v.player.autoPlaying
            && |w.player.pending| == |v.player.pending| - 1
  {
    TimerStepIs(v, i);
  }

  const B103 := Verse(103, 3, 6, 9, "third", S3)

  lemma TwoPagesSets()
    ensures Pages([A101, A102, B103]) == {5, 6}
    ensures PageSet([PageGroup(5, [A101, A102]), PageGroup(6, [B103])]) == {5, 6}
  {
    var vs := [A101, A102, B103];
    var gs := [PageGroup(5, [A101, A102]), PageGroup(6, [B103])];
    assert A101 in vs && B103 in vs;
    assert gs[0] in gs && gs[1] in gs;
  }

  lemma TwoPagesFilter()
    ensures OnPage([A101, A102, B103], 5) == [A101, A102]
    ensures OnPage([A101, A102, B103], 6) == [B103]
  {
    var vs := [A101, A102, B103];
    assert vs[1..] == [A102, B103] && vs[1..][1..] == [B103] && vs[1..][1..][1..] == [];
    assert OnPage([B103], 5) == [] && OnPage([B103], 6) == [B103];
    assert OnPage([A102, B103], 5) == [A102] && OnPage([A102, B103], 6) == [B103];
  }

  lemma TwoPages()
    ensures PagesInJuz(Some([A101, A102, B103])) == [PageGroup(5, [A101, A102]), PageGroup(6, [B103])]
  {
    var vs := [A101, A102, B103];
    var gs := [PageGroup(5, [A101, A102]), PageGroup(6, [B103])];
    TwoPagesSets();
    TwoPagesFilter();
    assert IsPageGrouping(vs, gs);
    GroupingIsUnique(vs, gs, PagesInJuz(Some(vs)));
  }

  function StaleScope(): Scope
  {
    Scope(None, Some(PageGroup(5, [A101, A102])), Some(Recitation))
  }

  const TwoPageJuz := [A101, A102, B103]
  const StaleFirstDone := Handle("a101.mp3", 101, true, StaleScope())
  const StaleTimer102 := Pending("a102.mp3", 102, AdvanceDelay, StaleScope())
  /** 101 has just ended in auto mode and 102 is scheduled. */
  const StaleWaiting := Player(None, true, [StaleFirstDone], [StaleTimer102])
  /** The same after Next: auto mode off, the timer still pending. */
  const StaleStopped := Player(None, false, [StaleFirstDone], [StaleTimer102])
  /** The timer has fired: 102 plays with auto mode off. */
  const StalePlaying := Player(Some(102), false, [StaleFirstDone, Handle("a102.mp3", 102, false, StaleScope())], [])

  /** Page 5 holds 101 and 102, page 6 holds 103; "Play Page" was pressed on
      page 5 and 101 has just ended, so 102 is scheduled. */
  function StaleView(): View
  {
    View(Some(4), 0, Some(TwoPageJuz), Some(Recitation), StaleWaiting)
  }

  /** The same juz on page 6 (index 1) with the given playback state. */
  function PageSix(p: Player): View
  {
    View(Some(4), 1, Some(TwoPageJuz), Some(Recitation), p)
  }

  lemma StalePendingIsValid()
    ensures ValidPending(StaleView().player.pending[0])
  {
    assert FindAudio(Recitation, 102) == Some(Recitation[1]);
    assert [A101, A102][1].number == 102;
  }

  lemma StaleViewIsConsistent()
    ensures Invariant(StaleView())
  {
    StalePendingIsValid();
  }

  lemma StaleViewCanMoveOn()
    ensures PageShown(StaleView()) && !Disabled(StaleView(), Next)
  {
    TwoPages();
  }

  lemma StaleFlip()
    ensures Step(StaleView(), Flip(Next)) == PageSix(StaleStopped)
  {
    var v := StaleView();
    StaleViewCanMoveOn();
    FlipStepIs(v, Next);
    assert FlipStep(v, Next) == HandlePageChange(v, Next);
    StaleStop();
    StaleIndex();
  }

  lemma StaleStop()
    ensures StopAutoPlay(StaleWaiting) == StaleStopped
  {
  }

  lemma StaleIndex()
    ensures MovedIndex(PageCount(StaleView()), 0, Next) == 1
  {
    TwoPages();
  }

  lemma StaleTimer()
    ensures Step(PageSix(StaleStopped), TimerFired(0)) == PageSix(StalePlaying)
  {
    TimerStepIs(PageSix(StaleStopped), 0);
  }

  lemma StaleLandingPage(p: Player)
    ensures CurrentJuzPage(PageSix(p)) == Some(PageGroup(6, [B103]))
    ensures !OnPageNumbered([B103], 102)
  {
    TwoPages();
    assert [B103][0].number == 103;
  }

  /** The concrete case: the reader presses Next within the 500 ms; the
      timer then plays 102, a verse of page 5, while page 6 is shown and
      auto mode is off. */
  lemma StaleAdvanceCounterexample()
    ensures var w := Run(StaleView(), [Flip(Next), TimerFired(0)]);
            && Invariant(StaleView())
            && CurrentJuzPage(w) == Some(PageGroup(6, [B103]))
            && w.player.playingAyah == Some(102)
            && !w.player.autoPlaying
            && Audible(w.player.handles)
            && !OnPageNumbered(CurrentJuzPage(w).value.ayahs, 102)
  {
    StaleViewIsConsistent();
    StaleFlip();
    StaleTimer();
    StaleLandingPage(StalePlaying);
    var es := [Flip(Next), TimerFired(0)];
    assert es[1..] == [TimerFired(0)] && es[1..][1..] == [];
    assert Run(StaleView(), es) == PageSix(StalePlaying);
  }

  /** The events that end a playback session when they take effect:
      navigation, juz selection and the Stop button. */
  predicate StopsPlayback(v: View, e: Event)
  {
    || e.ChooseJuz?
    || (e.Flip? && PageShown(v) && !Disabled(v, e.dir))
    || (e.ClickStop? && HeaderShown(v) && v.player.autoPlaying)
  }

  /** The step with stopping as intended: `stopAutoPlay` also clears every
      pending auto-advance timer. Every other event is as written. */
  function CorrectedStep(v: View, e: Event): View
  {
    var w := Step(v, e);
    if StopsPlayback(v, e) then w.(player := w.player.(pending := [])) else w
  }

  function RunCorrected(v: View, es: seq<Event>): View
    decreases |es|
  {
    if es == [] then v else RunCorrected(CorrectedStep(v, es[0]), es[1..])
  }

  /** Nothing heard, nothing highlighted, nothing scheduled, auto mode off. */
  predicate Quiet(v: View)
  {
    && !v.player.autoPlaying
    && v.player.pending == []
    && v.player.playingAyah == None
    && !Audible(v.player.handles)
  }

  predicate PlayClick(e: Event)
  {
    e.ClickPlay? || e.ClickPlayPage?
  }

  /** With stopping corrected, a stop leaves nothing heard, highlighted or
      scheduled. */
  lemma CorrectedStopIsQuiet(v: View, e: Event)
    requires StopsPlayback(v, e)
    ensures Quiet(CorrectedStep(v, e))
  {
  }

  lemma QuietStep(v: View, e: Event)
    requires Quiet(v) && !PlayClick(e)
    ensures Quiet(CorrectedStep(v, e))
  {
  }

  /** A quiet page stays quiet until the reader presses a play control. */
  lemma {:induction false} QuietUntilPlayClicked(v: View, es: seq<Event>)
    requires Quiet(v)
    requires forall k :: 0 <= k < |es| ==> !PlayClick(es[k])
    ensures Quiet(RunCorrected(v, es))
    decreases |es|
  {
    if es != [] {
      QuietStep(v, es[0]);
      QuietUntilPlayClicked(CorrectedStep(v, es[0]), es[1..]);
    }
  }

  /** The correction at work: after an effective stop, navigation or juz
      change, the corrected page stays quiet through any events until a
      play control is pressed. As written, a pending timer breaks this
      (`StaleAdvanceCounterexample`). */
  lemma CorrectedStopStaysQuiet(v: View, e: Event, es: seq<Event>)
    requires StopsPlayback(v, e)
    requires forall k :: 0 <= k < |es| ==> !PlayClick(es[k])
    ensures Quiet(RunCorrected(v, [e] + es))
  {
    CorrectedStopIsQuiet(v, e);
    QuietUntilPlayClicked(CorrectedStep(v, e), es);
    assert ([e] + es)[1..] == es;
  }

  lemma CorrectedStepPreservesInvariant(v: View, e: Event)
    requires Invariant(v)
    ensures Invariant(CorrectedStep(v, e))
  {
    StepPreservesInvariant(v, e);
  }
}

=== FILE: pagination.dfy ===
/** `pagesInJuz` of the juz page view (src/pages/PageView.tsx): the flat
    verse list of a juz grouped by page number, groups in ascending page
    order, verses inside a group in source order. */
module Pagination {
  import opened Options
  import opened Quran

  /** The verses of `vs` printed on page `p`, in source order. */
  function OnPage(vs: seq<Verse>, p: int): (r: seq<Verse>)
    ensures forall v :: v in r <==> v in vs && v.page == p
    ensures |r| <= |vs|
  {
    if vs == [] then []
    else (if vs[0].page == p then [vs[0]] else []) + OnPage(vs[1..], p)
  }

  /** The page numbers that occur in `vs`. */
  function Pages(vs: seq<Verse>): set<int>
  {
    set v | v in vs :: v.page
  }

  /** The page numbers of a group list. */
  function PageSet(gs: seq<PageGroup>): set<int>
  {
    set g | g in gs :: g.page
  }

  predicate DistinctPages(gs: seq<PageGroup>)
  {
    forall i, j :: 0 <= i < j < |gs| ==> gs[i].page != gs[j].page
  }

  predicate StrictlyAscending(gs: seq<PageGroup>)
  {
    forall i, j :: 0 <= i < j < |gs| ==> gs[i].page < gs[j].page
  }

  /** What grouping promises, independently of how it is computed: one
      group per page that occurs, in strictly ascending page order, each
      holding exactly that page's verses in source order. */
  predicate IsPageGrouping(vs: seq<Verse>, gs: seq<PageGroup>)
  {
    && StrictlyAscending(gs)
    && PageSet(gs) == Pages(vs)
    && forall k :: 0 <= k < |gs| ==> gs[k].ayahs == OnPage(vs, gs[k].page)
  }

  /** `a` is `b` with some elements dropped and the rest in their order. */
  predicate IsSubsequence(a: seq<Verse>, b: seq<Verse>)
    decreases |b|
  {
    if a == [] then true
    else if b == [] then false
    else if a[0] == b[0] then IsSubsequence(a[1..], b[1..])
    else IsSubsequence(a, b[1..])
  }

  lemma {:induction false} OnPageAppend(vs: seq<Verse>, v: Verse, p: int)
    ensures OnPage(vs + [v], p) == OnPage(vs, p) + (if v.page == p then [v] else [])
    decreases |vs|
  {
    if vs == [] {
      assert [v][1..] == [];
    } else {
      assert (vs + [v])[0] == vs[0];
      assert (vs + [v])[1..] == vs[1..] + [v];
      OnPageAppend(vs[1..], v, p);
    }
  }

  lemma OnPageEmpty(vs: seq<Verse>, p: int)
    requires p !in Pages(vs)
    ensures OnPage(vs, p) == []
  {
  }

  /** Where page `p` sits in the table (`map.has(p)` / `map.get(p)`), or
      `|gs|` when it has no entry yet. */
  function EntryOf(gs: seq<PageGroup>, p: int): (k: nat)
    ensures k <= |gs|
    ensures k < |gs| ==> gs[k].page == p
    ensures k == |gs| ==> forall j :: 0 <= j < |gs| ==> gs[j].page != p
  {
    if gs == [] then 0
    else if gs[0].page == p then 0
    else 1 + EntryOf(gs[1..], p)
  }

  /** One turn of the source's loop: push the verse onto its page's entry,
      opening a new entry at the end when the page is new. */
  function AddVerse(gs: seq<PageGroup>, v: Verse): seq<PageGroup>
  {
    var k := EntryOf(gs, v.page);
    if k < |gs| then gs[k := PageGroup(v.page, gs[k].ayahs + [v])]
    else gs + [PageGroup(v.page, [v])]
  }

  /** The insertion-ordered `Map` the source builds before sorting. */
  function Collect(vs: seq<Verse>): (gs: seq<PageGroup>)
    ensures DistinctPages(gs)
    ensures PageSet(gs) == Pages(vs)
    ensures forall k :: 0 <= k < |gs| ==> gs[k].ayahs == OnPage(vs, gs[k].page)
    decreases |vs|
  {
    if vs == [] then []
    else
      var init := vs[..|vs| - 1];
      var v := vs[|vs| - 1];
      assert vs == init + [v];
      var before := Collect(init);
      CollectStep(init, v, before);
      AddVerse(before, v)
  }

  lemma PagesAppend(init: seq<Verse>, v: Verse)
    ensures Pages(init + [v]) == Pages(init) + {v.page}
  {
    var vs := init + [v];
    forall p | p in Pages(vs) ensures p in Pages(init) + {v.page} {
      var w :| w in vs && w.page == p;
      if w != v { assert w in init; }
    }
    forall p | p in Pages(init) + {v.page} ensures p in Pages(vs) {
      if p != v.page {
        var w :| w in init && w.page == p;
        assert w in vs;
      } else {
        assert v in vs;
      }
    }
  }

  lemma PageSetUpdate(before: seq<PageGroup>, e: nat, g: PageGroup)
    requires e < |before| && before[e].page == g.page
    ensures PageSet(before[e := g]) == PageSet(before)
  {
    var after := before[e := g];
    forall p | p in PageSet(after) ensures p in PageSet(before) {
      var h :| h in after && h.page == p;
      var j :| 0 <= j < |after| && after[j] == h;
      assert before[j] in before;
    }
    forall p | p in PageSet(before) ensures p in PageSet(after) {
      var h :| h in before && h.page == p;
      var j :| 0 <= j < |before| && before[j] == h;
      assert after[j] in after;
    }
  }

  lemma PageSetAppend(before: seq<PageGroup>, g: PageGroup)
    ensures PageSet(before + [g]) == PageSet(before) + {g.page}
  {
    var after := before + [g];
    forall p | p in PageSet(after) ensures p in PageSet(before) + {g.page} {
      var h :| h in after && h.page == p;
      var j :| 0 <= j < |after| && after[j] == h;
      if j < |before| { assert before[j] in before; }
    }
    forall p | p in PageSet(before) + {g.page} ensures p in PageSet(after) {
      if p == g.page {
        assert after[|before|] in after;
      } else {
        var h :| h in before && h.page == p;
        var j :| 0 <= j < |before| && before[j] == h;
        assert after[j] in after;
      }
    }
  }

  lemma CollectStep(init: seq<Verse>, v: Verse, before: seq<PageGroup>)
    requires DistinctPages(before)
    requires PageSet(before) == Pages(init)
    requires forall k :: 0 <= k < |before| ==> before[k].ayahs == OnPage(init, before[k].page)
    ensures DistinctPages(AddVerse(before, v))
    ensures PageSet(AddVerse(before, v)) == Pages(init + [v])
    ensures forall k :: 0 <= k < |AddVerse(before, v)| ==>
              AddVerse(before, v)[k].ayahs == OnPage(init + [v], AddVerse(before, v)[k].page)
  {
    PagesAppend(init, v);
    var e := EntryOf(before, v.page);
    if e < |before| {
      CollectStepExisting(init, v, before, e);
    } else {
      CollectStepNew(init, v, before);
    }
  }

  lemma CollectStepExisting(init: seq<Verse>, v: Verse, before: seq<PageGroup>, e: nat)
    requires DistinctPages(before)
    requires PageSet(before) == Pages(init)
    requires forall k :: 0 <= k < |before| ==> before[k].ayahs == OnPage(init, before[k].page)
    requires e < |before| && before[e].page == v.page
    ensures var after := before[e := PageGroup(v.page, before[e].ayahs + [v])];
      && DistinctPages(after)
      && PageSet(after) == Pages(init) + {v.page}
      && forall k :: 0 <= k < |after| ==> after[k].ayahs == OnPage(init + [v], after[k].page)
  {
    var after := before[e := PageGroup(v.page, before[e].ayahs + [v])];
    PageSetUpdate(before, e, after[e]);
    assert before[e] in before;
    forall k | 0 <= k < |after|
      ensures after[k].ayahs == OnPage(init + [v], after[k].page)
    {
      OnPageAppend(init, v, after[k].page);
    }
  }

  lemma CollectStepNew(init: seq<Verse>, v: Verse, before: seq<PageGroup>)
    requires DistinctPages(before)
    requires PageSet(before) == Pages(init)
    requires forall k :: 0 <= k < |before| ==> before[k].ayahs == OnPage(init, before[k].page)
    requires forall j :: 0 <= j < |before| ==> before[j].page != v.page
    ensures var after := before + [PageGroup(v.page, [v])];
      && DistinctPages(after)
      && PageSet(after) == Pages(init) + {v.page}
      && forall k :: 0 <= k < |after| ==> after[k].ayahs == OnPage(init + [v], after[k].page)
  {
    var after := before + [PageGroup(v.page, [v])];
    PageSetAppend(before, PageGroup(v.page, [v]));
    assert v.page !in PageSet(before) by {
      forall g | g in before ensures g.page != v.page {
        var j :| 0 <= j < |before| && before[j] == g;
      }
    }
    OnPageEmpty(init, v.page);
    forall k | 0 <= k < |after|
      ensures after[k].ayahs == OnPage(init + [v], after[k].page)
    {
      OnPageAppend(init, v, after[k].page);
    }
  }

  /** Insert a group into a list sorted by page (one step of sorting with
      the comparator `a[0] - b[0]`). */
  function InsertByPage(g: PageGroup, gs: seq<PageGroup>): (r: seq<PageGroup>)
    requires StrictlyAscending(gs)
    requires forall k :: 0 <= k < |gs| ==> gs[k].page != g.page
    ensures StrictlyAscending(r)
    ensures multiset(r) == multiset(gs) + multiset{g}
    ensures r[0] == g || (|gs| > 0 && r[0] == gs[0])
  {
    if gs == [] then [g]
    else if g.page < gs[0].page then
      AscendingCons(g, gs);
      [g] + gs
    else
      var rest := InsertByPage(g, gs[1..]);
      assert gs == [gs[0]] + gs[1..];
      AscendingCons(gs[0], rest);
      [gs[0]] + rest
  }

  /** A group below the first of an ascending list extends it. */
  lemma AscendingCons(h: PageGroup, t: seq<PageGroup>)
    requires StrictlyAscending(t)
    requires t == [] || h.page < t[0].page
    ensures StrictlyAscending([h] + t)
  {
    var r := [h] + t;
    forall i, j | 0 <= i < j < |r| ensures r[i].page < r[j].page {
      if i == 0 {
        assert r[j] == t[j - 1];
        assert j - 1 == 0 || t[0].page < t[j - 1].page;
      } else {
        assert r[i] == t[i - 1] && r[j] == t[j - 1];
      }
    }
  }

  lemma OtherPages(gs: seq<PageGroup>, rest: seq<PageGroup>)
    requires DistinctPages(gs) && gs != []
    requires multiset(rest) == multiset(gs[1..])
    ensures forall k :: 0 <= k < |rest| ==> rest[k].page != gs[0].page
  {
    forall k | 0 <= k < |rest| ensures rest[k].page != gs[0].page {
      assert rest[k] in multiset(gs[1..]);
      var j :| 0 <= j < |gs[1..]| && gs[1..][j] == rest[k];
      assert gs[j + 1] == rest[k];
    }
  }

  /** `Array.from(map.entries()).sort((a, b) => a[0] - b[0])`. Page numbers
      in the table are distinct, so every correct sort gives this result. */
  function SortByPage(gs: seq<PageGroup>): (r: seq<PageGroup>)
    requires DistinctPages(gs)
    ensures StrictlyAscending(r)
    ensures multiset(r) == multiset(gs)
  {
    if gs == [] then []
    else
      var rest := SortByPage(gs[1..]);
      assert gs == [gs[0]] + gs[1..];
      OtherPages(gs, rest);
      InsertByPage(gs[0], rest)
  }

  lemma SameElementsSamePages(a: seq<PageGroup>, b: seq<PageGroup>)
    requires multiset(a) == multiset(b)
    ensures PageSet(a) == PageSet(b)
    ensures forall k :: 0 <= k < |a| ==> exists j :: 0 <= j < |b| && a[k] == b[j]
  {
    forall k | 0 <= k < |a| ensures exists j :: 0 <= j < |b| && a[k] == b[j] {
      assert a[k] in multiset(b);
    }
    forall p | p in PageSet(a) ensures p in PageSet(b) {
      var g :| g in a && g.page == p;
      assert g in multiset(b);
    }
    forall p | p in PageSet(b) ensures p in PageSet(a) {
      var g :| g in b && g.page == p;
      assert g in multiset(a);
    }
  }

  /** `pagesInJuz`: no juz data gives no pages; otherwise the grouping
      described by `IsPageGrouping`, empty exactly when there are no
      verses. */
  function PagesInJuz(data: Option<seq<Verse>>): (gs: seq<PageGroup>)
    ensures data.None? ==> gs == []
    ensures data.Some? ==> IsPageGrouping(data.value, gs)
    ensures data.Some? ==> (gs == [] <==> data.value == [])
  {
    if data.None? then []
    else
      var table := Collect(data.value);
      var gs := SortByPage(table);
      SameElementsSamePages(gs, table);
      SomePage(data.value);
      gs
  }

  lemma SomePage(vs: seq<Verse>)
    ensures vs == [] <==> Pages(vs) == {}
  {
    if vs != [] {
      assert vs[0].page in Pages(vs);
    }
  }

  lemma OnPageCount(vs: seq<Verse>, p: int, v: Verse)
    ensures multiset(OnPage(vs, p))[v] == if v.page == p then multiset(vs)[v] else 0
  {
    if vs != [] {
      assert vs == [vs[0]] + vs[1..];
      OnPageCount(vs[1..], p, v);
    }
  }

  lemma {:induction false} OnPageIsSubsequence(vs: seq<Verse>, p: int)
    ensures IsSubsequence(OnPage(vs, p), vs)
    decreases |vs|
  {
    if vs != [] {
      OnPageIsSubsequence(vs[1..], p);
      var rest := OnPage(vs[1..], p);
      if vs[0].page == p {
        assert OnPage(vs, p) == [vs[0]] + rest;
        assert ([vs[0]] + rest)[1..] == rest;
      } else {
        assert OnPage(vs, p) == rest;
        if rest != [] {
          assert rest[0] in rest;
        }
      }
    }
  }

  /** Grouping is a partition that keeps order: no group is empty, every
      verse lies in exactly one group and carries that group's page, a group
      holds every occurrence of its verses, and a group's verses appear in
      source order. */
  lemma GroupingIsPartition(vs: seq<Verse>, gs: seq<PageGroup>)
    requires IsPageGrouping(vs, gs)
    ensures forall k :: 0 <= k < |gs| ==> gs[k].ayahs != []
    ensures forall k, v :: 0 <= k < |gs| && v in gs[k].ayahs ==> v in vs && v.page == gs[k].page
    ensures forall v :: v in vs ==> exists k :: 0 <= k < |gs| && v in gs[k].ayahs
    ensures forall v, k, k' :: 0 <= k < |gs| && 0 <= k' < |gs| && v in gs[k].ayahs && v in gs[k'].ayahs ==> k == k'
    ensures forall k, v :: 0 <= k < |gs| && v in gs[k].ayahs ==> multiset(gs[k].ayahs)[v] == multiset(vs)[v]
    ensures forall k :: 0 <= k < |gs| ==> IsSubsequence(gs[k].ayahs, vs)
  {
    forall k | 0 <= k < |gs| ensures gs[k].ayahs != [] && IsSubsequence(gs[k].ayahs, vs) {
      assert gs[k] in gs;
      assert gs[k].page in Pages(vs);
      var w :| w in vs && w.page == gs[k].page;
      assert w in gs[k].ayahs;
      OnPageIsSubsequence(vs, gs[k].page);
    }
    forall v | v in vs ensures exists k :: 0 <= k < |gs| && v in gs[k].ayahs {
      assert v.page in PageSet(gs);
      var g :| g in gs && g.page == v.page;
      var k :| 0 <= k < |gs| && gs[k] == g;
      assert v in gs[k].ayahs;
    }
    forall k, v | 0 <= k < |gs| && v in gs[k].ayahs
      ensures multiset(gs[k].ayahs)[v] == multiset(vs)[v]
    {
      OnPageCount(vs, gs[k].page, v);
    }
  }

  lemma NoPagesNoGroups(gs: seq<PageGroup>)
    ensures gs == [] <==> PageSet(gs) == {}
  {
    if gs != [] {
      assert gs[0] in gs;
      assert gs[0].page in PageSet(gs);
    }
  }

  lemma AscendingSameSetEqual(a: seq<PageGroup>, b: seq<PageGroup>)
    requires StrictlyAscending(a) && StrictlyAscending(b)
    requires PageSet(a) == PageSet(b)
    ensures |a| == |b|
    ensures forall k :: 0 <= k < |a| ==> a[k].page == b[k].page
    decreases |a|
  {
    NoPagesNoGroups(a);
    NoPagesNoGroups(b);
    if a != [] && b != [] {
      assert a[0] in a && b[0] in b;
      assert a[0].page == b[0].page by {
        var j :| 0 <= j < |b| && b[j].page == a[0].page by { assert a[0].page in PageSet(b); }
        var i :| 0 <= i < |a| && a[i].page == b[0].page by { assert b[0].page in PageSet(a); }
      }
      assert PageSet(a[1..]) == PageSet(a) - {a[0].page} by {
        forall p | p in PageSet(a) - {a[0].page} ensures p in PageSet(a[1..]) {
          var i :| 0 <= i < |a| && a[i].page == p;
          assert a[1..][i - 1] == a[i];
        }
      }
      assert PageSet(b[1..]) == PageSet(b) - {b[0].page} by {
        forall p | p in PageSet(b) - {b[0].page} ensures p in PageSet(b[1..]) {
          var i :| 0 <= i < |b| && b[i].page == p;
          assert b[1..][i - 1] == b[i];
        }
      }
      AscendingSameSetEqual(a[1..], b[1..]);
      forall k | 0 <= k < |a| ensures a[k].page == b[k].page {
        if k > 0 { assert a[1..][k - 1] == a[k] && b[1..][k - 1] == b[k]; }
      }
    }
  }

  /** `IsPageGrouping` pins the result down: at most one group list meets
      it, so `PagesInJuz` is that list. */
  lemma {:induction false} GroupingIsUnique(vs: seq<Verse>, a: seq<PageGroup>, b: seq<PageGroup>)
    requires IsPageGrouping(vs, a) && IsPageGrouping(vs, b)
    ensures a == b
  {
    AscendingSameSetEqual(a, b);
    assert forall k :: 0 <= k < |a| ==> a[k] == b[k];
  }
}

=== FILE: quran.dfy ===
/** The records the pages receive from the Quran content API, and the
    lookups the pages perform on them. */
module Quran {
  import opened Options

  /** The chapter a verse belongs to, as the API embeds it in every verse. */
  datatype SurahRef = SurahRef(number: int, name: string)

  /** One verse (`Ayah`) of a text edition. `number` is the global verse
      number, unique across the whole text. */
  datatype Verse = Verse(
    number: int,
    numberInSurah: int,
    page: int,
    hizbQuarter: int,
    text: string,
    surah: SurahRef)

  /** One verse of an audio edition: the same global number and an optional
      audio URL. */
  datatype AudioVerse = AudioVerse(number: int, audio: Option<string>)

  /** One page of a juz: its page number and the verses printed on it. */
  datatype PageGroup = PageGroup(page: int, ayahs: seq<Verse>)

  /** `list.find(a => a.number === n)`: correlation by verse number, never by
      position. The entry found is the first one carrying that number. */
  function FindAudio(list: seq<AudioVerse>, n: int): (r: Option<AudioVerse>)
    ensures r.Some? ==> r.value in list && r.value.number == n
    ensures r.None? <==> forall j :: 0 <= j < |list| ==> list[j].number != n
    ensures r.Some? ==> exists k :: 0 <= k < |list| && list[k] == r.value
                                   && forall j :: 0 <= j < k ==> list[j].number != n
  {
    if list == [] then None
    else if list[0].number == n then Some(list[0])
    else
      var r := FindAudio(list[1..], n);
      assert r.Some? ==> exists k :: 0 <= k < |list[1..]| && list[1..][k] == r.value
                                     && forall j :: 0 <= j < k ==> list[1..][j].number != n;
      assert forall j :: 1 <= j < |list| ==> list[j] == list[1..][j - 1];
      r
  }

  /** `audioAyah?.audio` is truthy: the audio verse exists and its URL is a
      non-empty string. */
  predicate HasAudio(a: Option<AudioVerse>)
  {
    a.Some? && a.value.audio.Some? && a.value.audio.value != ""
  }

  function AudioUrl(a: Option<AudioVerse>): string
    requires HasAudio(a)
  {
    a.value.audio.value
  }

  /** `ayahs.findIndex(a => a.number === n)`: the first position of verse `n`
      on a page, or -1 when it is not there. */
  function FindIndex(ayahs: seq<Verse>, n: int): (k: int)
    ensures -1 <= k < |ayahs|
    ensures k >= 0 ==> ayahs[k].number == n
    ensures forall j :: 0 <= j < |ayahs| && (k < 0 || j < k) ==> ayahs[j].number != n
  {
    if ayahs == [] then -1
    else if ayahs[0].number == n then 0
    else
      var k := FindIndex(ayahs[1..], n);
      if k < 0 then -1 else k + 1
  }

  /** Verse `n` appears on the page. */
  predicate OnPageNumbered(ayahs: seq<Verse>, n: int)
  {
    exists j :: 0 <= j < |ayahs| && ayahs[j].number == n
  }

  /** The Bismillah banner is shown above a surah unless it is surah 1,
      whose first verse already is the Bismillah, or surah 9, which has
      none. The surah page and the juz page use the same test. */
  predicate BismillahShown(surahNumber: int)
  {
    surahNumber != 1 && surahNumber != 9
  }

  /** Of the 114 surahs, exactly surahs 1 and 9 go without the banner. */
  lemma BismillahOmittedExactlyForOneAndNine()
    ensures (set n | 1 <= n <= 114 && !BismillahShown(n)) == {1, 9}
  {
    var omitted := set n | 1 <= n <= 114 && !BismillahShown(n);
    assert 1 in omitted && 9 in omitted;
  }
}

=== FILE: search_page.dfy ===
/** The search page (src/pages/SearchPage.tsx): trimming and gating the
    submitted term, the query's enable condition, the surah number shown on
    each result card, and which result panel is visible. */
module SearchPage {
  import opened Options
  import opened Quran
  import opened Decimal

  /** The characters `String.prototype.trim` removes: ECMAScript's
      WhiteSpace and LineTerminator code points. */
  predicate IsWhiteSpace(c: char)
  {
    var u := c as int;
    u == 0x09 || u == 0x0B || u == 0x0C || u == 0x20 || u == 0xA0 || u == 0xFEFF
    || u == 0x1680 || (0x2000 <= u <= 0x200A) || u == 0x202F || u == 0x205F || u == 0x3000
    || u == 0x0A || u == 0x0D || u == 0x2028 || u == 0x2029
  }

  predicate AllSpace(s: string)
  {
    forall k :: 0 <= k < |s| ==> IsWhiteSpace(s[k])
  }

  /** Neither end of `s` is whitespace. */
  predicate NoEdgeSpace(s: string)
  {
    |s| == 0 || (!IsWhiteSpace(s[0]) && !IsWhiteSpace(s[|s| - 1]))
  }

  /** Every character of `s` from index `a` up to `b` is whitespace. */
  predicate SpaceBetween(s: string, a: int, b: int)
    requires 0 <= a <= b <= |s|
  {
    forall j :: a <= j < b ==> IsWhiteSpace(s[j])
  }

  /** `r` is `s` with only whitespace taken off before index `i` and after
      `r`. */
  predicate Stripped(s: string, i: int, r: string)
  {
    0 <= i && i + |r| <= |s| && s[i..i + |r|] == r
    && SpaceBetween(s, 0, i) && SpaceBetween(s, i + |r|, |s|)
  }

  /** The number of whitespace characters `s` starts with. */
  function Leading(s: string): (k: nat)
    ensures k <= |s| && SpaceBetween(s, 0, k)
    ensures k < |s| ==> !IsWhiteSpace(s[k])
  {
    if |s| > 0 && IsWhiteSpace(s[0]) then
      var k := 1 + Leading(s[1..]);
      assert forall j :: 1 <= j < k ==> s[j] == s[1..][j - 1];
      k
    else 0
  }

  /** The number of whitespace characters `s` ends with. */
  function Trailing(s: string): (k: nat)
    ensures k <= |s| && SpaceBetween(s, |s| - k, |s|)
    ensures k < |s| ==> !IsWhiteSpace(s[|s| - k - 1])
  {
    if |s| > 0 && IsWhiteSpace(s[|s| - 1]) then
      var init := s[..|s| - 1];
      var k := 1 + Trailing(init);
      assert forall j :: |s| - k <= j < |s| - 1 ==> s[j] == init[j];
      k
    else 0
  }

  /** `s.trim()`. */
  function Trim(s: string): (r: string)
    ensures Stripped(s, Leading(s), r)
    ensures NoEdgeSpace(r)
  {
    TrimmedInfix(s);
    var a := s[Leading(s)..];
    a[..|a| - Trailing(a)]
  }

  lemma TrimmedInfix(s: string)
    ensures var a := s[Leading(s)..];
            var r := a[..|a| - Trailing(a)];
            Stripped(s, Leading(s), r) && NoEdgeSpace(r)
  {
    var l := Leading(s);
    var a := s[l..];
    var k := |a| - Trailing(a);
    SliceOfSuffix(s, l, k);
    TrailingOfSuffix(s, l, k);
  }

  lemma SliceOfSuffix(s: string, l: int, k: int)
    requires 0 <= l <= |s| && 0 <= k <= |s| - l
    ensures s[l..][..k] == s[l..l + k]
  {
  }

  lemma TrailingOfSuffix(s: string, l: int, k: int)
    requires 0 <= l <= |s| && 0 <= k <= |s| - l
    requires SpaceBetween(s[l..], k, |s| - l)
    ensures SpaceBetween(s, l + k, |s|)
  {
    forall j | l + k <= j < |s| ensures IsWhiteSpace(s[j]) {
      assert s[j] == s[l..][j - l];
    }
  }

  /** Trimming is the only way to strip whitespace from both ends and end
      with a non-space character on each side. */
  lemma TrimUnique(s: string, i: int, t: string)
    requires Stripped(s, i, t) && NoEdgeSpace(t)
    ensures t == Trim(s)
  {
    var r := Trim(s);
    if |t| > 0 {
      assert s[i] == t[0];
      assert s[i + |t| - 1] == t[|t| - 1];
      assert |r| > 0 ==> s[Leading(s) + |r| - 1] == r[|r| - 1];
    }
  }

  /** The trimmed text is empty exactly when the whole text is whitespace. */
  lemma TrimEmptyIffAllSpace(s: string)
    ensures Trim(s) == [] <==> AllSpace(s)
  {
  }

  /** Trimming twice is trimming once. */
  lemma TrimIdempotent(s: string)
    ensures Trim(Trim(s)) == Trim(s)
  {
    var r := Trim(s);
    assert Stripped(r, 0, r);
    TrimUnique(r, 0, r);
  }

  /** `handleSearch`: the active search becomes the trimmed term exactly when
      the trimmed term is non-empty (a non-empty string is truthy);
      otherwise it stays as it was. */
  function HandleSearch(term: string, active: string): (r: string)
    ensures !AllSpace(term) ==> r == Trim(term) && r != []
    ensures AllSpace(term) ==> r == active
  {
    TrimEmptyIffAllSpace(term);
    if Trim(term) != [] then Trim(term) else active
  }

  /** The active search after submitting each term in turn. */
  function SubmitAll(active: string, terms: seq<string>): string
    decreases |terms|
  {
    if terms == [] then active else SubmitAll(HandleSearch(terms[0], active), terms[1..])
  }

  /** Starting from the empty search, submitting never produces an active
      search with whitespace at either end. */
  lemma {:induction false} SubmittedSearchHasNoEdgeSpace(active: string, terms: seq<string>)
    requires NoEdgeSpace(active)
    ensures NoEdgeSpace(SubmitAll(active, terms))
    decreases |terms|
  {
    if terms != [] {
      SubmittedSearchHasNoEdgeSpace(HandleSearch(terms[0], active), terms[1..]);
    }
  }

  /** Submitting the same term again changes nothing, and a term that is
      already its own trim becomes the active search as it is. */
  lemma ResubmitIsIdempotent(term: string, active: string)
    ensures HandleSearch(term, HandleSearch(term, active)) == HandleSearch(term, active)
    ensures term != [] && term == Trim(term) ==> HandleSearch(term, active) == term
  {
    TrimEmptyIffAllSpace(term);
  }

  /** The search query runs only for a non-empty active search. */
  predicate QueryEnabled(active: string)
  {
    |active| > 0
  }

  /** Starting from the empty search, the query is enabled exactly when
      some submitted term held a non-space character. */
  lemma {:induction false} QueryEnabledIffMeaningfulSubmit(active: string, terms: seq<string>)
    requires active == [] || !AllSpace(active)
    ensures QueryEnabled(SubmitAll(active, terms))
        <==> QueryEnabled(active) || exists k :: 0 <= k < |terms| && !AllSpace(terms[k])
    decreases |terms|
  {
    if terms != [] {
      var next := HandleSearch(terms[0], active);
      if !AllSpace(terms[0]) {
        TrimEmptyIffAllSpace(terms[0]);
        TrimIdempotent(terms[0]);
        TrimEmptyIffAllSpace(next);
      }
      QueryEnabledIffMeaningfulSubmit(next, terms[1..]);
      if exists k :: 0 <= k < |terms| && !AllSpace(terms[k]) {
        var k :| 0 <= k < |terms| && !AllSpace(terms[k]);
        if k > 0 { assert terms[1..][k - 1] == terms[k]; }
      }
      if exists k :: 0 <= k < |terms[1..]| && !AllSpace(terms[1..][k]) {
        var k :| 0 <= k < |terms[1..]| && !AllSpace(terms[1..][k]);
        assert terms[k + 1] == terms[1..][k];
      }
    }
  }

  /** The "Surah" badge of a result card, `Math.floor((n - 1) / 10) + 1`:
      the block of ten global verse numbers that `n` falls in (Dafny's `/`
      by a positive divisor rounds down, as `Math.floor` does). */
  function SurahBadge(n: int): (r: int)
    ensures 10 * (r - 1) < n <= 10 * r
    ensures n >= 1 ==> r >= 1
  {
    (n - 1) / 10 + 1
  }

  /** A later verse never gets a smaller badge. */
  lemma SurahBadgeMonotone(a: int, b: int)
    requires a <= b
    ensures SurahBadge(a) <= SurahBadge(b)
  {
  }

  /** What a result card shows of a match's surah: the badge number and the
      "Read Full Surah" link. */
  datatype Card = Card(badge: int, link: string)

  const SurahRoute: string := "/surah/"

  /** The route parameter of a `/surah/:number` link. */
  function LinkTarget(link: string): Option<int>
  {
    if |link| >= |SurahRoute| && link[..|SurahRoute|] == SurahRoute then ParseNumber(link[|SurahRoute|..])
    else None
  }

  function SurahLink(n: int): (l: string)
    ensures LinkTarget(l) == Some(n)
  {
    var l := SurahRoute + NumberToString(n);
    assert l[|SurahRoute|..] == NumberToString(n);
    NumberToStringRoundTrip(n);
    l
  }

  /** The card as the page builds it: badge and link both from the
      global-verse formula. */
  function CardAsWritten(m: Verse): (c: Card)
    ensures c.badge == SurahBadge(m.number)
    ensures LinkTarget(c.link) == Some(c.badge)
  {
    Card(SurahBadge(m.number), SurahLink(SurahBadge(m.number)))
  }

  /** The first verse of Al-Baqarah: global verse 8, since Al-Fatiha has
      seven verses. */
  const Baqarah1: Verse := Verse(8, 1, 2, 1, "", SurahRef(2, "Al-Baqarah"))

  /** The formula sends that match to surah 1: badge and link name the
      wrong surah. */
  lemma SurahFormulaMisplacesVerse()
    ensures CardAsWritten(Baqarah1).badge == 1
    ensures LinkTarget(CardAsWritten(Baqarah1).link) != Some(Baqarah1.surah.number)
  {
  }

  /** The corrected card: badge and link from the match's own surah. */
  function ResultCard(m: Verse): (c: Card)
    ensures c.badge == m.surah.number
    ensures LinkTarget(c.link) == Some(m.surah.number)
  {
    Card(m.surah.number, SurahLink(m.surah.number))
  }

  /** What the search endpoint returns. */
  datatype SearchResults = SearchResults(count: nat, matches: seq<Verse>)

  datatype Panel = Loading | ResultsList | NoResults | StartPrompt

  /** The panels visible for an active search and the query's response, if
      it has arrived: `isLoading` holds while an enabled query has no
      response, and a disabled query has no data. */
  function VisiblePanels(active: string, response: Option<SearchResults>): (r: set<Panel>)
    ensures ResultsList in r <==> QueryEnabled(active) && response.Some? && response.value.count > 0
    ensures NoResults in r <==> QueryEnabled(active) && response.Some? && response.value.count == 0
    ensures Loading in r <==> QueryEnabled(active) && response.None?
    ensures StartPrompt in r <==> active == []
  {
    var data := if QueryEnabled(active) then response else None;
    (if QueryEnabled(active) && response.None? then {Loading} else {})
    + (if data.Some? && data.value.count > 0 then {ResultsList} else {})
    + (if data.Some? && data.value.count == 0 then {NoResults} else {})
    + (if active == [] then {StartPrompt} else {})
  }

  /** Exactly one panel is visible at any time; in particular the results
      list and the "no results" card never show together. */
  lemma ExactlyOnePanel(active: string, response: Option<SearchResults>)
    ensures |VisiblePanels(active, response)| == 1
    ensures !(ResultsList in VisiblePanels(active, response) && NoResults in VisiblePanels(active, response))
  {
    var r := VisiblePanels(active, response);
    if !QueryEnabled(active) {
      assert r == {StartPrompt};
    } else if response.None? {
      assert r == {Loading};
    } else if response.value.count > 0 {
      assert r == {ResultsList};
    } else {
      assert r == {NoResults};
    }
  }
}

=== FILE: surah_detail.dfy ===
/** The surah page (src/pages/SurahDetail.tsx): bookmarks, a single-verse
    play/pause toggle without auto-advance, and the per-verse display
    decisions. Verses are keyed by their number within the surah. */
module SurahDetail {
  import opened Options
  import opened Quran
  import opened AudioElement

  /** `toggleBookmark(n)`: n changes membership, nothing else does. */
  function ToggleBookmark(marks: set<int>, n: int): (r: set<int>)
    ensures n in r <==> n !in marks
    ensures forall m :: m != n ==> (m in r <==> m in marks)
    ensures |r| == if n in marks then |marks| - 1 else |marks| + 1
  {
    if n in marks then marks - {n} else marks + {n}
  }

  /** Toggling the same verse twice restores the bookmark set. */
  lemma ToggleTwiceRestores(marks: set<int>, n: int)
    ensures ToggleBookmark(ToggleBookmark(marks, n), n) == marks
  {
    var r := ToggleBookmark(ToggleBookmark(marks, n), n);
    forall x ensures x in r <==> x in marks {
    }
  }

  /** Toggles of two verses commute. */
  lemma TogglesCommute(marks: set<int>, n: int, m: int)
    ensures ToggleBookmark(ToggleBookmark(marks, n), m) == ToggleBookmark(ToggleBookmark(marks, m), n)
  {
    var a := ToggleBookmark(ToggleBookmark(marks, n), m);
    var b := ToggleBookmark(ToggleBookmark(marks, m), n);
    forall x ensures x in a <==> x in b {
    }
  }

  /** `playingAyah` and the audio elements the page has created (the last
      one is `audioRef.current`). The `onended` closure captures nothing the
      model needs. */
  datatype SurahPlayer = SurahPlayer(playingAyah: Option<int>, handles: seq<Handle<()>>)

  const Silent := SurahPlayer(None, [])

  /** `playAudio(url, n)`: pauses verse n when it is the one playing and
      unpaused; otherwise pauses the current element and starts a new one
      for n. */
  function PlayAudio(p: SurahPlayer, url: string, n: int): (r: SurahPlayer)
    ensures p.playingAyah == Some(n) && Audible(p.handles) ==>
              && r.playingAyah == None
              && |r.handles| == |p.handles|
              && !Audible(r.handles)
              && forall k :: 0 <= k < |p.handles| - 1 ==> r.handles[k] == p.handles[k]
    ensures !(p.playingAyah == Some(n) && Audible(p.handles)) ==>
              && r.playingAyah == Some(n)
              && |r.handles| == |p.handles| + 1
              && r.handles[|p.handles|] == Handle(url, n, false, ())
              && (|p.handles| > 0 ==> r.handles[|p.handles| - 1].paused)
    ensures OnlyCurrentMayPlay(p.handles) ==> Tracks(r.playingAyah, r.handles)
  {
    if p.playingAyah == Some(n) && Audible(p.handles) then
      SurahPlayer(None, PauseCurrent(p.handles))
    else
      SurahPlayer(Some(n), StartNew(p.handles, url, n, ()))
  }

  /** `onended = () => setPlayingAyah(null)`: the current element ends and
      the highlight goes; no other element is created or resumed. */
  function NaturalEnd(p: SurahPlayer): (r: SurahPlayer)
    ensures Audible(p.handles) ==> r.playingAyah == None
    ensures |r.handles| == |p.handles| && !Audible(r.handles)
    ensures forall k :: 0 <= k < |p.handles| - 1 ==> r.handles[k] == p.handles[k]
    ensures Tracks(p.playingAyah, p.handles) ==> Tracks(r.playingAyah, r.handles)
  {
    if Audible(p.handles) then SurahPlayer(None, PauseCurrent(p.handles)) else p
  }

  /** What the reader and the browser do on one surah page: click the play
      button of the verse at a position, or let the current verse end. */
  datatype Action = Play(index: int) | End

  function Act(p: SurahPlayer, arabic: seq<Verse>, audio: Option<seq<AudioVerse>>, a: Action): SurahPlayer
  {
    match a
    case Play(i) => ClickPlay(p, arabic, audio, i)
    case End => NaturalEnd(p)
  }

  function Perform(p: SurahPlayer, arabic: seq<Verse>, audio: Option<seq<AudioVerse>>, acts: seq<Action>): SurahPlayer
    decreases |acts|
  {
    if acts == [] then p else Perform(Act(p, arabic, audio, acts[0]), arabic, audio, acts[1..])
  }

  /** Playing, pausing and ending alternate freely: whatever sequence of
      clicks and ends happens, at most one element is heard and the
      highlighted verse is the one heard. */
  lemma {:induction false} PlaybackStaysConsistent(p: SurahPlayer, arabic: seq<Verse>, audio: Option<seq<AudioVerse>>, acts: seq<Action>)
    requires Tracks(p.playingAyah, p.handles)
    ensures Tracks(Perform(p, arabic, audio, acts).playingAyah, Perform(p, arabic, audio, acts).handles)
    decreases |acts|
  {
    if acts != [] {
      PlaybackStaysConsistent(Act(p, arabic, audio, acts[0]), arabic, audio, acts[1..]);
    }
  }

  /** Ends alone never start anything: after any run of ends nothing is
      heard and no element has been added. */
  lemma {:induction false} EndsNeverAdvance(p: SurahPlayer, arabic: seq<Verse>, audio: Option<seq<AudioVerse>>, acts: seq<Action>)
    requires acts != [] && forall k :: 0 <= k < |acts| ==> acts[k].End?
    ensures !Audible(Perform(p, arabic, audio, acts).handles)
    ensures |Perform(p, arabic, audio, acts).handles| == |p.handles|
    decreases |acts|
  {
    if |acts| > 1 {
      EndsNeverAdvance(NaturalEnd(p), arabic, audio, acts[1..]);
    }
  }

  /** `showHizbQuarter` for the verse at `i`: the first verse, or a verse
      whose hizb quarter differs from the previous verse's. */
  predicate ShowHizbQuarter(ayahs: seq<Verse>, i: int)
    requires 0 <= i < |ayahs|
  {
    i == 0 || ayahs[i].hizbQuarter != ayahs[i - 1].hizbQuarter
  }

  /** Between two markers the quarter does not change: if no verse after
      `i` up to `j` carries a marker, verse `j` is in verse `i`'s quarter. */
  lemma {:induction false} UnmarkedVersesShareQuarter(ayahs: seq<Verse>, i: int, j: int)
    requires 0 <= i <= j < |ayahs|
    requires forall k :: i < k <= j ==> !ShowHizbQuarter(ayahs, k)
    ensures ayahs[j].hizbQuarter == ayahs[i].hizbQuarter
    decreases j - i
  {
    if i < j {
      assert !ShowHizbQuarter(ayahs, j);
      UnmarkedVersesShareQuarter(ayahs, i, j - 1);
    }
  }

  /** Every change of quarter is marked: when verses `i < j` lie in
      different quarters, some verse after `i` up to `j` carries a marker;
      and the first verse always carries one. */
  lemma QuarterChangesAreMarked(ayahs: seq<Verse>, i: int, j: int)
    requires 0 <= i < j < |ayahs|
    requires ayahs[i].hizbQuarter != ayahs[j].hizbQuarter
    ensures exists k :: i < k <= j && ShowHizbQuarter(ayahs, k)
    ensures ShowHizbQuarter(ayahs, 0)
  {
    if forall k :: i < k <= j ==> !ShowHizbQuarter(ayahs, k) {
      UnmarkedVersesShareQuarter(ayahs, i, j);
    }
  }

  /** `translationSurah?.ayahs[index]` and `audioSurah?.ayahs[index]`:
      the entry at the same position, absent when the list is missing or
      too short. Position decides, not verse number. */
  function Paired<T>(list: Option<seq<T>>, i: int): (r: Option<T>)
    ensures r.Some? <==> list.Some? && 0 <= i < |list.value|
    ensures r.Some? ==> r.value == list.value[i]
  {
    if list.Some? && 0 <= i < |list.value| then Some(list.value[i]) else None
  }

  /** When the translation list follows the Arabic list verse for verse,
      the pairing gives each verse its own translation. */
  lemma AlignedPairingMatches(arabic: seq<Verse>, translation: seq<Verse>, i: int)
    requires |translation| == |arabic|
    requires forall k :: 0 <= k < |arabic| ==> translation[k].number == arabic[k].number
    requires 0 <= i < |arabic|
    ensures Paired(Some(translation), i).Some?
    ensures Paired(Some(translation), i).value.number == arabic[i].number
  {
  }

  /** When a list is shifted by one, the pairing hands a verse its
      neighbour's entry: position is used, numbers are not checked, so a
      verse whose neighbour is a different verse gets the wrong entry. */
  lemma ShiftedPairingMismatches(arabic: seq<Verse>, i: int)
    requires 0 <= i < |arabic| - 1
    ensures Paired(Some(arabic[1..]), i) == Some(arabic[i + 1])
    ensures arabic[i + 1].number != arabic[i].number ==>
              Paired(Some(arabic[1..]), i).value.number != arabic[i].number
  {
  }

  /** The play button of verse `i` is rendered when the audio entry at the
      same position has a URL. */
  predicate PlayButtonShown(audio: Option<seq<AudioVerse>>, i: int)
  {
    HasAudio(Paired(audio, i))
  }

  /** A click on the play button of the verse at position `i`: only a
      rendered button can be clicked, and it calls `playAudio` with the URL
      of the audio entry at the same position and the verse's number within
      its surah. */
  function ClickPlay(p: SurahPlayer, arabic: seq<Verse>, audio: Option<seq<AudioVerse>>, i: int): (r: SurahPlayer)
    ensures !(0 <= i < |arabic| && PlayButtonShown(audio, i)) ==> r == p
    ensures 0 <= i < |arabic| && PlayButtonShown(audio, i)
            && !(p.playingAyah == Some(arabic[i].numberInSurah) && Audible(p.handles)) ==>
              && r.playingAyah == Some(arabic[i].numberInSurah)
              && Audible(r.handles)
              && r.handles[|r.handles| - 1].url == audio.value[i].audio.value
    ensures 0 <= i < |arabic| && PlayButtonShown(audio, i)
            && p.playingAyah == Some(arabic[i].numberInSurah) && Audible(p.handles) ==>
              r.playingAyah == None && !Audible(r.handles)
    ensures Tracks(p.playingAyah, p.handles) ==> Tracks(r.playingAyah, r.handles)
  {
    if 0 <= i < |arabic| && PlayButtonShown(audio, i) then
      PlayAudio(p, AudioUrl(Paired(audio, i)), arabic[i].numberInSurah)
    else p
  }
}
